=== FILE: README.md ===
# cobalt_tools in Dafny

cobalt_tools is a small Rust client for a cobalt media-extraction service. This
project models the decisions the client makes around its network calls, and
proves properties about them:

- **The extraction request** (`MediaRequestData`). It is serialised as a JSON
  object with fourteen keys, in field order, using camelCase wire names. An
  unset option is written as `null`.
- **The response.** It is decoded untagged: the Error shape is tried first,
  then Picker, then Redirect. `get_status` tags the variant.
- **`MediaError`** and how it is displayed.
- **`Client`:**
  - `get_media` resolves the credential and builds the POST request. It then
    classifies the outcome in this order: transport failure, non-2xx status,
    decode failure, success.
  - `status`, and `services`, which turns an empty list into an error.
  - `download` runs its pre-flight checks on `Content-Length` and on the
    status, then copies the body stream into the file chunk by chunk.

JSON is modelled as a value (`Json.Json`), not as text. Objects keep their
entries in order. `Json.Find` looks a key up the way the derived deserializers
do: a key that appears twice is an error. A `u64` field refuses numbers of
2^64 and above.

The network is a parameter:
- `get_media`, `status` and `services` receive `send`, which maps the request
  they built to what came back (`Api.Exchange`).
- `download` receives `get`, which maps the tunnel link to the response head
  and its body stream (`Api.Fetch`).

The file that `download` writes is a `Destination` object. Its `contents` are
updated in place.

Modules, one per source file, plus shared groundwork:

| module | file | models |
|---|---|---|
| `Wrappers` | wrappers.dfy | `Option`, `Result` |
| `Json` | json.dfy | JSON values, serde's field lookup, field decoders, `Vec` decoding |
| `Numerals` | numerals.dfy | decimal display of integers, `u64::from_str` |
| `MediaErrors` | media_error.dfy | src/structs/media_error.rs |
| `MediaRequest` | media_request.dfy | src/structs/media_request.rs |
| `MediaResponse` | media_response.dfy | src/structs/media_response.rs |
| `ServiceStatus` | status.dfy | src/structs/status.rs (shape only) |
| `Api` | client.dfy | src/api/client.rs |

Two facts about the request struct that the model keeps:

- **Unset options.** No field has `skip_serializing_if`, so an unset option is
  written as `null` (`MediaRequest.DefaultSerialization`).
- **Download mode.** `download_mode` is a free `Option<String>`; the code
  defines no mode enumeration.

## Model

| member | source | states |
|---|---|---|
| MediaErrors.Display | src/structs/media_error.rs:10-18 | the rendering is the variant's prefix ("Request Error: ", "Deserialization Error: ", "API Error: ") followed by the message, with nothing else |
| MediaErrors.Recover | src/structs/media_error.rs:10-18 | whatever is recovered from a string renders back to exactly that string |
| MediaErrors.RecoverDisplay | src/structs/media_error.rs:13-15 | the variant and the message can both be read back from the rendering |
| MediaErrors.DisplayInjective | src/structs/media_error.rs:10-18 | two errors that render the same are equal in kind and message |
| MediaRequest.Values | src/structs/media_request.rs:4-31 | fourteen values, in key order: `url` as a string first, then each string option and each boolean option as its value, or `null` when unset |
| MediaRequest.Default | src/structs/media_request.rs:3 | the derived `Default` has an empty url and every option unset |
| MediaRequest.Serialize | src/structs/media_request.rs:3-32 | the output is an object of exactly fourteen entries; entry i is the i-th wire key (`url`, `videoQuality`, … `youtubeHLS`) with the i-th field's value |
| MediaRequest.Deserialize | src/structs/media_request.rs:3-5 | an accepted value is an object whose `url` is a string, and that string is the request's url |
| MediaRequest.RequestShape | src/structs/media_request.rs:3-31 | on any JSON value, `Deserialize` gives a request iff the value is an object whose `url` is a string and each option, under its renamed key, is missing, `null` or of its type; each field of the request is the value read there, and keys nobody asked for are skipped |
| MediaRequest.UrlOnly | src/structs/media_request.rs:3-31 | an object holding only `url` is accepted, with every option unset: a missing option reads as `None` |
| MediaRequest.KeysDistinct | src/structs/media_request.rs:6-31 | the fourteen wire keys are pairwise distinct |
| MediaRequest.SerializedLookup | src/structs/media_request.rs:4-31 | each field is found exactly once, under its own renamed key |
| MediaRequest.StringOptionRead | src/structs/media_request.rs:6-19 | each string option reads back from the serialised object as it was set, unset included |
| MediaRequest.BoolOptionRead | src/structs/media_request.rs:20-31 | each boolean option reads back from the serialised object as it was set, unset included |
| MediaRequest.RoundTrip | src/structs/media_request.rs:3-32 | deserialising a serialised request gives back the same request |
| MediaRequest.DefaultSerialization | src/structs/media_request.rs:3-32 | `Default` serialises to `url: ""` followed by thirteen `null`s; no key is omitted |
| MediaResponse.GetStatus | src/structs/media_response.rs:58-65 | each variant maps to the like-named tag, in both directions |
| MediaResponse.ContextShape | src/structs/media_response.rs:10-14 | a context decodes iff it is an object whose `service` is a string, null or missing and whose `limit` is a u64, null or missing |
| MediaResponse.DetailsShape | src/structs/media_response.rs:16-20 | details decode iff `code` is a string and `context` is missing, null, or a decodable context |
| MediaResponse.ErrorShape | src/structs/media_response.rs:22-26 | the Error shape matches iff `status` is a string and `error` holds decodable details |
| MediaResponse.DecodeErrorResponse | src/structs/media_response.rs:22-26 | a match requires a string `status` and a present `error` |
| MediaResponse.ItemShape | src/structs/media_response.rs:28-33 | an item decodes iff `type` and `url` are strings and `thumb` is a string, null or missing |
| MediaResponse.DecodeItems | src/structs/media_response.rs:40 | the picker array decodes iff every entry does; the decoded items keep the array's order |
| MediaResponse.PickerShape | src/structs/media_response.rs:35-41 | the Picker shape matches iff `status` is a string, `audio` and `audio_filename` are optional strings, and `picker` is an array whose entries decode, in order, to the items |
| MediaResponse.DecodePickerResponse | src/structs/media_response.rs:35-41 | a match requires a string `status` and an array `picker` |
| MediaResponse.DecodeRedirectResponse | src/structs/media_response.rs:43-48 | the Redirect shape matches iff `status`, `url` and `filename` are strings |
| MediaResponse.Decode | src/structs/media_response.rs:50-56 | untagged decoding: Error if the Error shape matches; otherwise Picker if that matches; otherwise Redirect; otherwise failure |
| MediaResponse.EncodeContext | src/structs/media_response.rs:10-14 | the derived `Serialize` writes exactly the two keys `service` and `limit`, each with its value or `null` |
| MediaResponse.EncodeDetails | src/structs/media_response.rs:16-20 | exactly the two keys `code` and `context`; an unset context is written as `null`, a set one as its encoding |
| MediaResponse.EncodeErrorResponse | src/structs/media_response.rs:22-26 | exactly the keys `status` and `error`, with no other key |
| MediaResponse.EncodeItem | src/structs/media_response.rs:28-33 | exactly the three keys `type` (the raw identifier's name), `url` and `thumb` |
| MediaResponse.EncodeItems | src/structs/media_response.rs:40 | the encoded items line up with the items, one for one |
| MediaResponse.EncodePickerResponse | src/structs/media_response.rs:35-41 | exactly the keys `status`, `audio`, `audio_filename` (not renamed) and `picker`, the last an array of the encoded items |
| MediaResponse.EncodeRedirectResponse | src/structs/media_response.rs:43-48 | exactly the keys `status`, `url` and `filename`, with no other key |
| MediaResponse.Encode | src/structs/media_response.rs:50-56 | untagged output carries no variant tag: each variant writes only its own struct's keys and no other; the variant shows only through them: `error` iff Error, `picker` iff Picker, `filename` iff Redirect, `status` always |
| MediaResponse.ItemRoundTrip | src/structs/media_response.rs:28-33 | an encoded item decodes back to itself |
| MediaResponse.ItemsRoundTrip | src/structs/media_response.rs:40 | an encoded picker list decodes back to the same items in the same order |
| MediaResponse.ContextRoundTrip | src/structs/media_response.rs:10-14 | an encoded context decodes back to itself |
| MediaResponse.DetailsRoundTrip | src/structs/media_response.rs:16-20 | encoded details decode back to themselves |
| MediaResponse.ErrorRoundTrip | src/structs/media_response.rs:22-26 | an encoded error response decodes back to itself |
| MediaResponse.PickerIsNotError | src/structs/media_response.rs:50-56 | an encoded picker response is never taken for the Error shape |
| MediaResponse.PickerRoundTrip | src/structs/media_response.rs:35-41 | an encoded picker response fails the Error shape and decodes back to itself as a picker |
| MediaResponse.RedirectRoundTrip | src/structs/media_response.rs:43-48 | an encoded redirect fails the Error and Picker shapes and decodes back to itself |
| MediaResponse.RoundTrip | src/structs/media_response.rs:50-56 | decoding any encoded response gives back that response, variant included |
| MediaResponse.ErrorWinsOverRedirect | src/structs/media_response.rs:50-56 | an object that fits both the Error and the Redirect shapes decodes as Error |
| MediaResponse.StatusAloneFails | src/structs/media_response.rs:50-56 | an object with only a `status` fits no shape, and decoding fails |
| MediaResponse.NonObjectFails | src/structs/media_response.rs:50-56 | no value other than an object decodes (the array form of a struct is not modelled) |
| MediaResponse.SameShape | src/structs/media_response.rs:50-56 | two objects that agree on the keys the shapes read, apart from the text of `status`, decode to the same variant |
| MediaResponse.StatusValueIrrelevant | src/structs/media_response.rs:50-56 | replacing the string in `status` never changes which variant is chosen |
| MediaResponse.UnknownKeyIgnored | src/structs/media_response.rs:50-56 | appending a key that no shape knows leaves the decoded response unchanged |
| ServiceStatus.DecodeNames | src/structs/status.rs:16 | the services array decodes iff every entry is a string; the names keep their order |
| ServiceStatus.DecodeCobalt | src/structs/status.rs:9-17 | a decoded `cobalt` object's services are exactly the strings of its `services` array, in order |
| ServiceStatus.DecodeStatus | src/structs/status.rs:3-7 | a decoded status holds the decodings of its `cobalt` and `git` parts |
| Numerals.Decimal | src/api/client.rs:186-187 | a status code displays as a non-empty string of digits with no leading zero |
| Numerals.ParseU64 | src/api/client.rs:212 | `parse::<u64>` reports an empty string exactly when it is empty; on the digits after one optional `+` it gives the value they name (leading zeros allowed), or an overflow exactly when that value is 2^64 or more; a success read only such digits and gives that value |
| Numerals.AccumulateValue | src/api/client.rs:212 | the left-to-right scan over a string of digits gives the value the digits name, or an overflow exactly when that value does not fit in a u64 |
| Numerals.AccumulateAppend | src/api/client.rs:212 | scanning two strings one after the other is scanning the first and continuing from its value, or stopping at its error |
| Numerals.ParseMalformed | src/api/client.rs:212 | `parse::<u64>` rejects a lone `+` as an invalid digit; otherwise the first non-digit after the optional `+` is an invalid digit, unless the digits before it already overflow a u64, which is reported as an overflow |
| Numerals.ParseDecimal | src/api/client.rs:212 | parsing the decimal display of any u64 gives the number back |
| Api.StatusText | src/api/client.rs:186-187 | a status displays as its code, a space, and then the reason, or the placeholder for an unknown code |
| Api.MediaHeaderValues | src/api/client.rs:165-169 | the request headers are Content-Type and Accept `application/json`, User-Agent `Cobalt`, and Authorization `Api-Key <key>` |
| Api.Client.constructor | src/api/client.rs:13-16 | a client holds the key and instance URI it was created with |
| Api.Client.Credential | src/api/client.rs:159 | the override key when one is given, the stored key otherwise |
| Api.Client.MediaPost | src/api/client.rs:159-172 | a POST to the instance URI carrying exactly four headers, each name once: Content-Type, Accept, User-Agent, and an Authorization header that uses the override key when one is given and the stored key otherwise; the body is the serialised request data, which deserialises back to it |
| Api.Client.GetMedia | src/api/client.rs:154-203 | Ok iff sent, status 2xx and decoded, and then it is the decoded response; a RequestError exactly on a send failure, with "Failed to send request: "; an ApiError exactly on a non-2xx status, with "API request failed with status: <status> \| <body>"; a decode failure gives "Failed to parse response: " |
| Api.GetMediaReturnsServerResponse | src/api/client.rs:192-202 | a 2xx answer carrying an encoded response yields exactly that response |
| Api.ErrorBodyOnSuccessIsOk | src/api/client.rs:184-202 | an error-shaped body with a 2xx status is `Ok(Response::Error(..))`, not a `MediaError` |
| Api.Client.StatusGet | src/api/client.rs:60 | `status` sends a plain GET of the instance URI, with no headers and no body |
| Api.Client.Status | src/api/client.rs:59-66 | Ok iff the request was answered and the body decodes as a status; transport and decode errors are returned as they are |
| Api.StatusIgnoresHttpCode | src/api/client.rs:59-66 | answers that differ only in their HTTP status give the same outcome |
| Api.Client.Services | src/api/client.rs:104-112 | errors from `status` propagate; otherwise the result is "No services found" iff the list is empty, and otherwise the list unchanged |
| Api.ServicesFromPayload | src/api/client.rs:104-112 | the returned services are the non-empty `cobalt.services` array of the answer, entry for entry |
| Api.HeaderToStr | src/api/client.rs:212 | a header value reads as text iff every byte is visible ASCII or a tab; the text has the same characters |
| Api.LengthCheck | src/api/client.rs:211-221 | a missing header gives "Content-Length header is missing."; a header that is not text, or text that does not parse as u64, gives that error; 0 gives the zero-length error; it passes iff the header parses to a positive u64 |
| Api.Preflight | src/api/client.rs:209-226 | a transport failure comes first, then the Content-Length checks, then the HTTP status: a good header with a non-2xx status gives the HTTP failure with that status; it passes iff the length checks pass and the status is 2xx |
| Api.Message | src/api/client.rs:209-232 | errors raised with `?` keep their own text (the transport and stream errors, the integer parse error, and "failed to convert header to a str"); the zero and missing length texts are fixed; the HTTP failure text is "Failed to download file: HTTP " followed by the status's display |
| Api.HttpFailureNamesStatus | src/api/client.rs:224-225 | the HTTP failure text is the fixed prefix followed by the status code's digits |
| Api.DecimalLength | src/api/client.rs:211-217 | a Content-Length written in decimal passes unless it is 0, which gives "File has a content length of 0 bytes." |
| Api.LengthAccepted | src/api/client.rs:211-217 | an accepted Content-Length is visible text: digits after one optional `+`, naming a positive u64 |
| Api.WrittenWhole | src/api/client.rs:230-236 | a stream with no error is written out whole, chunk after chunk |
| Api.WrittenPrefix | src/api/client.rs:230-234 | when the first error is at chunk k, exactly chunks 0..k-1 are written and chunk k's error is reported |
| Api.Destination.constructor | src/api/client.rs:228 | a destination starts out not created and empty |
| Api.Destination.Create | src/api/client.rs:228 | `File::create` leaves the file created and empty |
| Api.Destination.WriteAll | src/api/client.rs:233 | `write_all` appends the chunk to what the file holds |
| Api.Download | src/api/client.rs:205-237 | a failed pre-flight check returns its error and leaves the destination untouched, so no file is created; otherwise the file is created and holds the bytes written by the copy loop |
| Api.CopyStream | src/api/client.rs:230-236 | the file holds the chunks before the first error, in order; Ok iff no chunk is broken, otherwise that chunk's error |
| Json.DecodeArray | src/structs/media_response.rs:40 | a `Vec` decodes iff every element does; elements keep their positions |

## Left out

- Network I/O, DNS, TLS, timeouts and the tokio runtime. Each call's outcome
  is a parameter (`send`, `get`).
- `reqwest::Client::new`, which is made per call. It has no visible effect.
- The shared `CLIENT_INSTANCE` (`Lazy`/`Arc`/`RwLock`) and the
  `unsafe impl Send/Sync`. They only concern sharing across threads.
- `Client::new` reading `API_KEY` and `INSTANCE_URI` from the environment and
  panicking when either is missing. The constructor takes the two values.
- The `eprintln!` lines in `download`, which only log.
- The `expect` panic when `File::create` fails. `Destination.Create` always
  succeeds.
- `write_all` failures on the local disk. Only errors from the body stream are
  modelled.
- JSON text: `serde_json::to_string`, parsing, escaping, floats and negative
  numbers. Bodies are JSON values, and a body that is not JSON is a missing
  payload.
- serde's second form of a struct, a JSON array of fields.
- MediaResponse.NonObjectFails: holds only because that array form is not
  modelled; serde would also decode a struct written as an array.
- No lemma states that `ServiceStatus.DecodeCobalt` and `ServiceStatus.DecodeGit`
  refuse a repeated field. Their lookup does refuse one.
- Some library texts are not computed; each is taken as given:
  - the `Display` of reqwest errors;
  - the `Debug` rendering of `response.text()` inside the `ApiError` message;
  - the text of a serde decode error;
  - the canonical reason phrase of a status.
- Which `Content-Length` header `HeaderMap::get` picks when there are several.
  The model is handed that one header.
- Api.Client.Status: states no property about `git`, `version`, `url`,
  `startTime` or `durationLimit` beyond their decoding. Only `services` is
  used by the client.
- src/lib.rs: its tests need a live server, so it is not part of this model.
- src/structs/mod.rs: it only re-exports, so it is not part of this model.

=== FILE: client.dfy ===
/**
  The HTTP client: the extraction call, the status and services calls, and the
  file download. The network is not modelled; each call is handed a `send`
  (or `get`) function that stands for "what the server and the transport did
  with this request", so every decision the client takes is a function of the
  request it built and of that answer.
 */
module Api {
  import opened Wrappers
  import opened Json
  import opened Numerals
  import opened MediaErrors
  import opened MediaRequest
  import MediaResponse
  import opened ServiceStatus

  type byte = b: int | 0 <= b < 256

  /** The codes an HTTP status can carry: three decimal digits. */
  type StatusCode = c: int | 100 <= c < 1000 witness 200

  predicate IsSuccess(code: StatusCode)
  {
    200 <= code < 300
  }

  const UNKNOWN_REASON: string := "<unknown status code>"

  /** How a status is displayed: its code, a space, and its canonical reason. */
  function StatusText(code: StatusCode, reason: Option<string>): (s: string)
    ensures |s| > |Decimal(code)| && s[..|Decimal(code)|] == Decimal(code) && s[|Decimal(code)|] == ' '
    ensures s[|Decimal(code)| + 1..] == if reason.Some? then reason.value else UNKNOWN_REASON
  {
    Decimal(code) + " " + (if reason.Some? then reason.value else UNKNOWN_REASON)
  }

  datatype HttpRequest = HttpRequest(
    verb: string, uri: string, headers: seq<(string, string)>, body: Option<Json>)

  /**
    What came back for a request: either it could not be sent, or the server
    answered with a status, the `Debug` rendering of the body text, the body
    parsed as JSON (when it is JSON), and the message a failed decode reports.
   */
  datatype Exchange =
    | SendFailed(error: string)
    | Answered(status: StatusCode, reason: Option<string>, textDebug: string,
               payload: Option<Json>, decodeError: string)

  const SEND_FAILED: string := "Failed to send request: "
  const API_FAILED: string := "API request failed with status: "
  const PARSE_FAILED: string := "Failed to parse response: "
  const NO_SERVICES: string := "No services found"

  /** The headers `get_media` puts on its request, in the order it adds them. */
  function MediaHeaders(key: string): seq<(string, string)>
  {
    [("Content-Type", "application/json"),
     ("Accept", "application/json"),
     ("User-Agent", "Cobalt"),
     ("Authorization", "Api-Key " + key)]
  }

  /** Each of those headers is there with its value, the credential under `Authorization`. */
  lemma MediaHeaderValues(key: string)
    ensures HeaderValue(MediaHeaders(key), "Content-Type") == Some("application/json")
    ensures HeaderValue(MediaHeaders(key), "Accept") == Some("application/json")
    ensures HeaderValue(MediaHeaders(key), "User-Agent") == Some("Cobalt")
    ensures HeaderValue(MediaHeaders(key), "Authorization") == Some("Api-Key " + key)
  {
    var h := MediaHeaders(key);
    var tail2 := [("User-Agent", "Cobalt"), ("Authorization", "Api-Key " + key)];
    assert h[1..][1..] == tail2;
    assert tail2[1..] == [("Authorization", "Api-Key " + key)];
    assert HeaderValue(h, "User-Agent") == HeaderValue(tail2, "User-Agent");
    assert HeaderValue(h, "Authorization") == HeaderValue(tail2, "Authorization");
    assert HeaderValue(tail2, "Authorization") == HeaderValue(tail2[1..], "Authorization");
  }

  /** The first value given for a header name. */
  function HeaderValue(headers: seq<(string, string)>, name: string): Option<string>
  {
    if headers == [] then None
    else if headers[0].0 == name then Some(headers[0].1)
    else HeaderValue(headers[1..], name)
  }

  class Client {
    const apiKey: string
    const instanceUri: string

    /** The environment's `API_KEY` and `INSTANCE_URI`, as read at start-up. */
    constructor (apiKey: string, instanceUri: string)
      ensures this.apiKey == apiKey && this.instanceUri == instanceUri
    {
      this.apiKey := apiKey;
      this.instanceUri := instanceUri;
    }

    /** The key a call authenticates with: the override when there is one, the stored key otherwise. */
    function Credential(overrideApiKey: Option<string>): (key: string)
      ensures overrideApiKey.Some? ==> key == overrideApiKey.value
      ensures overrideApiKey.None? ==> key == apiKey
    {
      if overrideApiKey.Some? then overrideApiKey.value else apiKey
    }

    /**
      The request `get_media` sends: a POST to the instance, carrying the
      serialized request data, authorised with the resolved key.
     */
    function MediaPost(overrideApiKey: Option<string>, videoData: MediaRequestData): (req: HttpRequest)
      ensures req.verb == "POST" && req.uri == instanceUri
      ensures |req.headers| == 4
      ensures HeaderValue(req.headers, "Content-Type") == Some("application/json")
      ensures HeaderValue(req.headers, "Accept") == Some("application/json")
      ensures HeaderValue(req.headers, "User-Agent") == Some("Cobalt")
      ensures overrideApiKey.Some? ==> HeaderValue(req.headers, "Authorization") == Some("Api-Key " + overrideApiKey.value)
      ensures overrideApiKey.None? ==> HeaderValue(req.headers, "Authorization") == Some("Api-Key " + apiKey)
      ensures req.body == Some(Serialize(videoData))
      ensures req.body.Some? && Deserialize(req.body.value) == Some(videoData)
    {
      RoundTrip(videoData);
      MediaHeaderValues(Credential(overrideApiKey));
      HttpRequest("POST", instanceUri, MediaHeaders(Credential(overrideApiKey)), Some(Serialize(videoData)))
    }

    /**
      `get_media`: the outcome is classified in a fixed order. A send failure is a
      request error; then a non-2xx status is an API error, before any decoding;
      then a body that does not decode is a deserialization error; only then is
      the decoded response returned.
     */
    function GetMedia(overrideApiKey: Option<string>, videoData: MediaRequestData, send: HttpRequest -> Exchange)
      : (r: Result<MediaResponse.Response, MediaError>)
      ensures var ex := send(MediaPost(overrideApiKey, videoData));
        && (r.Ok? <==> ex.Answered? && IsSuccess(ex.status)
                       && ex.payload.Some? && MediaResponse.Decode(ex.payload.value).Some?)
        && (r.Ok? ==> MediaResponse.Decode(ex.payload.value) == Some(r.value))
        && (r.Err? && r.error.RequestError? <==> ex.SendFailed?)
        && (ex.SendFailed? ==> r == Err(RequestError(SEND_FAILED + ex.error)))
        && (r.Err? && r.error.ApiError? <==> ex.Answered? && !IsSuccess(ex.status))
        && (ex.Answered? && !IsSuccess(ex.status) ==>
              r == Err(ApiError(API_FAILED + StatusText(ex.status, ex.reason) + " | " + ex.textDebug)))
        && (r.Err? && r.error.DeserializationError? ==> r.error.message == PARSE_FAILED + ex.decodeError)
    {
      match send(MediaPost(overrideApiKey, videoData))
      case SendFailed(e) => Err(RequestError(SEND_FAILED + e))
      case Answered(status, reason, textDebug, payload, decodeError) =>
        if !IsSuccess(status) then
          Err(ApiError(API_FAILED + StatusText(status, reason) + " | " + textDebug))
        else
          var decoded := if payload.Some? then MediaResponse.Decode(payload.value) else None;
          if decoded.None? then Err(DeserializationError(PARSE_FAILED + decodeError))
          else Ok(decoded.value)
    }

    /** The request `status` sends: a plain GET of the instance, with no headers. */
    function StatusGet(): (req: HttpRequest)
      ensures req.verb == "GET" && req.uri == instanceUri && req.headers == [] && req.body.None?
    {
      HttpRequest("GET", instanceUri, [], None)
    }

    /**
      `status`: a send failure or a body that does not decode is an error; the
      HTTP status itself is never looked at.
     */
    function Status(send: HttpRequest -> Exchange): (r: Result<StatusResponse, string>)
      ensures var ex := send(StatusGet());
        && (r.Ok? <==> ex.Answered? && ex.payload.Some? && DecodeStatus(ex.payload.value).Some?)
        && (r.Ok? ==> DecodeStatus(ex.payload.value) == Some(r.value))
        && (ex.SendFailed? ==> r == Err(ex.error))
        && (ex.Answered? && r.Err? ==> r == Err(ex.decodeError))
    {
      match send(StatusGet())
      case SendFailed(e) => Err(e)
      case Answered(_, _, _, payload, decodeError) =>
        var decoded := if payload.Some? then DecodeStatus(payload.value) else None;
        if decoded.None? then Err(decodeError) else Ok(decoded.value)
    }

    /**
      `services`: the status's service list, unchanged, when it is not empty;
      "No services found" when it is; the status call's own error otherwise.
     */
    function Services(send: HttpRequest -> Exchange): (r: Result<seq<string>, string>)
      ensures Status(send).Err? ==> r == Err(Status(send).error)
      ensures Status(send).Ok? ==>
        (r.Ok? <==> Status(send).value.cobalt.services != [])
        && (r.Ok? ==> r.value == Status(send).value.cobalt.services)
        && (r.Err? ==> r.error == NO_SERVICES)
    {
      match Status(send)
      case Err(e) => Err(e)
      case Ok(status) =>
        if status.cobalt.services == [] then Err(NO_SERVICES) else Ok(status.cobalt.services)
    }
  }

  /** A 2xx answer carrying the encoding of a response gives back that very response. */
  lemma GetMediaReturnsServerResponse(
    c: Client, overrideApiKey: Option<string>, videoData: MediaRequestData,
    send: HttpRequest -> Exchange, response: MediaResponse.Response)
    requires send(c.MediaPost(overrideApiKey, videoData)).Answered?
    requires IsSuccess(send(c.MediaPost(overrideApiKey, videoData)).status)
    requires send(c.MediaPost(overrideApiKey, videoData)).payload == Some(MediaResponse.Encode(response))
    ensures c.GetMedia(overrideApiKey, videoData, send) == Ok(response)
  {
    MediaResponse.RoundTrip(response);
  }

  /**
    An error-shaped body on a 2xx answer is a successful call: it comes back as
    `Ok` of the `Error` variant, never as a `MediaError`.
   */
  lemma ErrorBodyOnSuccessIsOk(
    c: Client, overrideApiKey: Option<string>, videoData: MediaRequestData,
    send: HttpRequest -> Exchange, e: MediaResponse.ErrorResponse)
    requires send(c.MediaPost(overrideApiKey, videoData)).Answered?
    requires IsSuccess(send(c.MediaPost(overrideApiKey, videoData)).status)
    requires send(c.MediaPost(overrideApiKey, videoData)).payload == Some(MediaResponse.EncodeErrorResponse(e))
    ensures c.GetMedia(overrideApiKey, videoData, send) == Ok(MediaResponse.Response.Error(e))
  {
    GetMediaReturnsServerResponse(c, overrideApiKey, videoData, send, MediaResponse.Response.Error(e));
  }

  /** Two answers that differ only in their status code give the same `status` outcome. */
  lemma StatusIgnoresHttpCode(c: Client, send1: HttpRequest -> Exchange, send2: HttpRequest -> Exchange)
    requires send1(c.StatusGet()).Answered? && send2(c.StatusGet()).Answered?
    requires send1(c.StatusGet()).payload == send2(c.StatusGet()).payload
    requires send1(c.StatusGet()).decodeError == send2(c.StatusGet()).decodeError
    ensures c.Status(send1) == c.Status(send2)
  {
  }

  /** The services returned are the `services` array of the payload's `cobalt` part, in order. */
  lemma ServicesFromPayload(c: Client, send: HttpRequest -> Exchange)
    requires c.Services(send).Ok?
    ensures var ex := send(c.StatusGet());
      && ex.Answered? && ex.payload.Some? && ex.payload.value.Object?
      && Find(ex.payload.value.fields, "cobalt").Found?
      && var cobalt := Find(ex.payload.value.fields, "cobalt").value;
      && cobalt.Object? && Find(cobalt.fields, "services").Found?
      && Find(cobalt.fields, "services").value.Array?
      && var names := Find(cobalt.fields, "services").value.items;
      && names != [] && |names| == |c.Services(send).value|
      && forall i :: 0 <= i < |names| ==> names[i] == Str(c.Services(send).value[i])
  {
    var ex := send(c.StatusGet());
    var cobalt := Find(ex.payload.value.fields, "cobalt").value;
    assert DecodeCobalt(cobalt) == Some(c.Status(send).value.cobalt);
  }

  // ---------------------------------------------------------------------------
  // download
  // ---------------------------------------------------------------------------

  /** One item of the body stream: a chunk of bytes, or the error that ended the stream. */
  datatype Chunk = Bytes(data: seq<byte>) | Broken(error: string)

  /**
    What fetching the tunnel link gave: a transport error, or a status, the
    first `Content-Length` header's raw bytes (if any), and the body stream.
   */
  datatype Fetch =
    | GetFailed(error: string)
    | Streamed(status: StatusCode, reason: Option<string>, contentLength: Option<seq<byte>>, body: seq<Chunk>)

  /** The errors `download` returns, boxed in the source; `Message` gives each one's text. */
  datatype DownloadError =
    | Transport(error: string)
    | HeaderNotText
    | BadLength(kind: IntErrorKind)
    | ZeroLength
    | MissingLength
    | HttpFailure(status: StatusCode, reason: Option<string>)
    | StreamFailed(error: string)

  /**
    The text each error displays: errors raised by `?` keep their own text; the
    length checks and the status check have fixed texts, the latter followed by
    the status's code.
   */
  function Message(e: DownloadError): (s: string)
    ensures e.Transport? || e.StreamFailed? ==> s == e.error
    ensures e.HeaderNotText? ==> s == "failed to convert header to a str"
    ensures e.BadLength? ==> s == IntErrorMessage(e.kind)
    ensures e.ZeroLength? ==> s == "File has a content length of 0 bytes."
    ensures e.MissingLength? ==> s == "Content-Length header is missing."
    ensures e.HttpFailure? ==> s == "Failed to download file: HTTP " + StatusText(e.status, e.reason)
  {
    match e
    case Transport(error) => error
    case HeaderNotText => "failed to convert header to a str"
    case BadLength(kind) => IntErrorMessage(kind)
    case ZeroLength => "File has a content length of 0 bytes."
    case MissingLength => "Content-Length header is missing."
    case HttpFailure(status, reason) => "Failed to download file: HTTP " + StatusText(status, reason)
    case StreamFailed(error) => error
  }

  /** The text of an HTTP failure names the status: the fixed prefix, then the status code's digits. */
  lemma HttpFailureNamesStatus(status: StatusCode, reason: Option<string>)
    ensures var s := Message(HttpFailure(status, reason));
      var prefix := "Failed to download file: HTTP ";
      var code := Decimal(status);
      && |s| > |prefix| + |code|
      && s[..|prefix|] == prefix
      && s[|prefix|..|prefix| + |code|] == code
  {
    var prefix := "Failed to download file: HTTP ";
    var t := StatusText(status, reason);
    var s := prefix + t;
    assert s[|prefix|..] == t;
    assert s[|prefix|..|prefix| + |Decimal(status)|] == t[..|Decimal(status)|];
  }

  /** A byte a header value may hold to be read as text: visible ASCII or a tab. */
  predicate IsVisible(b: byte)
  {
    32 <= b < 127 || b == 9
  }

  /** `HeaderValue::to_str`: the value as text when every byte is visible, otherwise an error. */
  function HeaderToStr(v: seq<byte>): (r: Option<string>)
    ensures r.Some? <==> forall i :: 0 <= i < |v| ==> IsVisible(v[i])
    ensures r.Some? ==> |r.value| == |v| && forall i :: 0 <= i < |v| ==> r.value[i] as int == v[i]
  {
    if forall i :: 0 <= i < |v| ==> IsVisible(v[i])
    then Some(seq(|v|, i requires 0 <= i < |v| => v[i] as char))
    else None
  }

  /** The bytes of an ASCII string. */
  function AsciiBytes(s: string): (bs: seq<byte>)
    requires forall i :: 0 <= i < |s| ==> s[i] as int < 128
    ensures |bs| == |s| && forall i :: 0 <= i < |s| ==> bs[i] == s[i] as int
  {
    seq(|s|, i requires 0 <= i < |s| => s[i] as int)
  }

  /**
    The `Content-Length` checks, in the order `download` makes them: the header
    must be present, be text, parse as a `u64`, and not be zero.
   */
  function LengthCheck(header: Option<seq<byte>>): (r: Option<DownloadError>)
    ensures header.None? ==> r == Some(MissingLength)
    ensures header.Some? && HeaderToStr(header.value).None? ==> r == Some(HeaderNotText)
    ensures header.Some? && HeaderToStr(header.value).Some? && ParseU64(HeaderToStr(header.value).value).Err? ==>
      r == Some(BadLength(ParseU64(HeaderToStr(header.value).value).error))
    ensures r == Some(ZeroLength) <==>
      header.Some? && HeaderToStr(header.value).Some? && ParseU64(HeaderToStr(header.value).value) == Ok(0)
    ensures r.None? <==>
      header.Some? && HeaderToStr(header.value).Some? && ParseU64(HeaderToStr(header.value).value).Ok?
      && ParseU64(HeaderToStr(header.value).value).value > 0
  {
    match header
    case None => Some(MissingLength)
    case Some(v) =>
      match HeaderToStr(v)
      case None => Some(HeaderNotText)
      case Some(text) =>
        match ParseU64(text)
        case Err(kind) => Some(BadLength(kind))
        case Ok(n) => if n == 0 then Some(ZeroLength) else None
  }

  /**
    Every check `download` makes before it creates the file: the fetch itself,
    then the length header, and only then the HTTP status.
   */
  function Preflight(f: Fetch): (r: Option<DownloadError>)
    ensures f.GetFailed? ==> r == Some(Transport(f.error))
    ensures f.Streamed? && LengthCheck(f.contentLength).Some? ==> r == LengthCheck(f.contentLength)
    ensures r.None? <==> f.Streamed? && LengthCheck(f.contentLength).None? && IsSuccess(f.status)
    ensures f.Streamed? && LengthCheck(f.contentLength).None? && !IsSuccess(f.status) ==>
      r == Some(HttpFailure(f.status, f.reason))
    ensures r.Some? && r.value.HttpFailure? ==> f.Streamed? && r.value == HttpFailure(f.status, f.reason)
  {
    match f
    case GetFailed(e) => Some(Transport(e))
    case Streamed(status, reason, header, _) =>
      var length := LengthCheck(header);
      if length.Some? then length
      else if !IsSuccess(status) then Some(HttpFailure(status, reason))
      else None
  }

  /** Every byte of the stream, chunk after chunk, ignoring errors. */
  function Concat(cs: seq<Chunk>): seq<byte>
  {
    if cs == [] then [] else (if cs[0].Bytes? then cs[0].data else []) + Concat(cs[1..])
  }

  /** The bytes the copy loop writes: those of the chunks before the first error. */
  function Written(cs: seq<Chunk>): seq<byte>
  {
    if cs == [] then []
    else match cs[0]
      case Bytes(data) => data + Written(cs[1..])
      case Broken(_) => []
  }

  /** The error of the first broken chunk, if there is one. */
  function FirstBroken(cs: seq<Chunk>): Option<string>
  {
    if cs == [] then None
    else match cs[0]
      case Bytes(_) => FirstBroken(cs[1..])
      case Broken(e) => Some(e)
  }

  /** A stream with no error is written out whole, in order. */
  lemma {:induction false} WrittenWhole(cs: seq<Chunk>)
    requires FirstBroken(cs).None?
    ensures forall i :: 0 <= i < |cs| ==> cs[i].Bytes?
    ensures Written(cs) == Concat(cs)
  {
    if cs != [] {
      WrittenWhole(cs[1..]);
      assert forall i :: 1 <= i < |cs| ==> cs[i] == cs[1..][i - 1];
    }
  }

  /**
    A stream whose first error is at position `k` is written up to that chunk
    and no further, and the error reported is that chunk's.
   */
  lemma {:induction false} WrittenPrefix(cs: seq<Chunk>, k: int)
    requires 0 <= k < |cs| && cs[k].Broken?
    requires forall i :: 0 <= i < k ==> cs[i].Bytes?
    ensures FirstBroken(cs) == Some(cs[k].error)
    ensures Written(cs) == Concat(cs[..k])
  {
    if k == 0 {
      assert cs[..0] == [];
    } else {
      assert cs[1..][..k - 1] == cs[..k][1..];
      WrittenPrefix(cs[1..], k - 1);
    }
  }

  /** How the stream from position `i` on starts: with a chunk's bytes, or with its error. */
  lemma ChunkStep(cs: seq<Chunk>, i: int)
    requires 0 <= i < |cs|
    ensures cs[i].Bytes? ==> Written(cs[i..]) == cs[i].data + Written(cs[i + 1..])
    ensures cs[i].Bytes? ==> FirstBroken(cs[i..]) == FirstBroken(cs[i + 1..])
    ensures cs[i].Broken? ==> Written(cs[i..]) == [] && FirstBroken(cs[i..]) == Some(cs[i].error)
  {
    assert cs[i..][0] == cs[i];
    assert cs[i..][1..] == cs[i + 1..];
  }

  /** A length written in decimal passes the header checks unless it is zero. */
  lemma DecimalLength(n: u64)
    ensures LengthCheck(Some(AsciiBytes(Decimal(n)))) == if n == 0 then Some(ZeroLength) else None
  {
    var s := Decimal(n);
    var bs := AsciiBytes(s);
    assert forall i :: 0 <= i < |bs| ==> IsVisible(bs[i]);
    assert HeaderToStr(bs).value == s;
    ParseDecimal(n);
  }

  /** A header value that passes is non-empty text of digits (after an optional `+`) naming a positive `u64`. */
  lemma LengthAccepted(v: seq<byte>)
    requires LengthCheck(Some(v)).None?
    ensures v != [] && forall i :: 0 <= i < |v| ==> IsVisible(v[i])
    ensures var s := HeaderToStr(v).value;
      && (forall i :: (if s[0] == '+' then 1 else 0) <= i < |s| ==> IsDigit(s[i]))
      && ParseU64(s).Ok? && ParseU64(s).value > 0
  {
  }

  /** The file the download writes to; `File::create` empties it. */
  class Destination {
    var created: bool
    var contents: seq<byte>

    constructor ()
      ensures !created && contents == []
    {
      created := false;
      contents := [];
    }

    method Create()
      modifies this
      ensures created && contents == []
    {
      created := true;
      contents := [];
    }

    method WriteAll(data: seq<byte>)
      requires created
      modifies this
      ensures created && contents == old(contents) + data
    {
      contents := contents + data;
    }
  }

  /**
    `download`: nothing is touched when a pre-flight check fails; otherwise the
    file is created and the stream copied into it.
   */
  method Download(tunnelLink: string, get: string -> Fetch, file: Destination) returns (r: Result<(), DownloadError>)
    modifies file
    ensures Preflight(get(tunnelLink)).Some? ==>
      r == Err(Preflight(get(tunnelLink)).value) && unchanged(file)
    ensures Preflight(get(tunnelLink)).None? ==>
      var body := get(tunnelLink).body;
      && file.created && file.contents == Written(body)
      && (r.Ok? <==> FirstBroken(body).None?)
      && (FirstBroken(body).Some? ==> r == Err(StreamFailed(FirstBroken(body).value)))
  {
    var f := get(tunnelLink);
    var failure := Preflight(f);
    if failure.Some? {
      return Err(failure.value);
    }
    file.Create();
    r := CopyStream(f.body, file);
  }

  /**
    The copy loop: each chunk is written as it arrives, until the stream ends
    or a chunk is broken, whose error is then returned with what came before
    it already written.
   */
  method CopyStream(body: seq<Chunk>, file: Destination) returns (r: Result<(), DownloadError>)
    requires file.created && file.contents == []
    modifies file
    ensures file.created && file.contents == Written(body)
    ensures r.Ok? <==> FirstBroken(body).None?
    ensures FirstBroken(body).Some? ==> r == Err(StreamFailed(FirstBroken(body).value))
  {
    var i := 0;
    while i < |body|
      invariant 0 <= i <= |body|
      invariant file.created
      invariant file.contents + Written(body[i..]) == Written(body)
      invariant FirstBroken(body[i..]) == FirstBroken(body)
      decreases |body| - i
    {
      ChunkStep(body, i);
      match body[i]
      case Broken(e) =>
        return Err(StreamFailed(e));
      case Bytes(data) =>
        file.WriteAll(data);
        i := i + 1;
    }
    assert body[i..] == [];
    return Ok(());
  }
}

=== FILE: json.dfy ===
/**
  JSON values as a derived serde decoder sees them, and the field rules that
  such a decoder applies to an object: a known field may appear at most once,
  unknown keys are skipped, an `Option` field is unset when its key is missing
  or its value is `null`, and every other field must be present with a value of
  the right kind.
 */
module Json {
  import opened Wrappers

  /** Numbers are the non-negative integers only: the models decode no other kind. */
  datatype Json =
    | Null
    | Bool(b: bool)
    | Number(n: nat)
    | Str(s: string)
    | Array(items: seq<Json>)
    | Object(fields: seq<(string, Json)>)

  const U64_LIMIT: nat := 0x1_0000_0000_0000_0000

  /** Rust's `u64`. */
  type u64 = n: nat | n < U64_LIMIT

  /** What a derived decoder finds under one known key of an object. */
  datatype Lookup = Missing | Found(value: Json) | Duplicate

  /** True when `key` occurs in `fields` at index `k` and nowhere else. */
  ghost predicate OnlyAt(fields: seq<(string, Json)>, key: string, k: int)
  {
    && 0 <= k < |fields|
    && fields[k].0 == key
    && forall i :: 0 <= i < |fields| && i != k ==> fields[i].0 != key
  }

  /** The lookup a derived decoder makes for one known key: a second occurrence is an error. */
  function Find(fields: seq<(string, Json)>, key: string): Lookup
  {
    if fields == [] then Missing
    else
      var rest := Find(fields[1..], key);
      if fields[0].0 != key then rest
      else if rest.Missing? then Found(fields[0].1)
      else Duplicate
  }

  /** An object that holds `key` once. */
  predicate HasKey(j: Json, key: string)
  {
    j.Object? && Find(j.fields, key).Found?
  }

  /** An object in which no key outside `keys` is present. */
  ghost predicate OnlyKeys(j: Json, keys: seq<string>)
  {
    j.Object? && forall key :: key !in keys ==> Find(j.fields, key) == Missing
  }

  /** The lookup reports a missing key exactly when no entry carries it. */
  lemma {:induction false} FindMissing(fields: seq<(string, Json)>, key: string)
    ensures Find(fields, key).Missing? <==> forall i :: 0 <= i < |fields| ==> fields[i].0 != key
  {
    if fields != [] {
      FindMissing(fields[1..], key);
      assert forall i :: 1 <= i < |fields| ==> fields[i] == fields[1..][i - 1];
    }
  }

  /** A found value is the value of the one entry that carries the key. */
  lemma {:induction false} FindFound(fields: seq<(string, Json)>, key: string)
    requires Find(fields, key).Found?
    ensures exists k :: OnlyAt(fields, key, k) && fields[k].1 == Find(fields, key).value
  {
    var rest := Find(fields[1..], key);
    assert forall i :: 1 <= i < |fields| ==> fields[i] == fields[1..][i - 1];
    if fields[0].0 != key {
      FindFound(fields[1..], key);
      var k :| OnlyAt(fields[1..], key, k) && fields[1..][k].1 == rest.value;
      assert OnlyAt(fields, key, k + 1);
    } else {
      FindMissing(fields[1..], key);
      assert OnlyAt(fields, key, 0);
    }
  }

  /** A key stored exactly once is found with its value. */
  lemma {:induction false} FindOnlyAt(fields: seq<(string, Json)>, key: string, k: int)
    requires OnlyAt(fields, key, k)
    ensures Find(fields, key) == Found(fields[k].1)
  {
    if k == 0 {
      assert forall i :: 0 <= i < |fields[1..]| ==> fields[1..][i] == fields[i + 1];
      FindMissing(fields[1..], key);
    } else {
      assert OnlyAt(fields[1..], key, k - 1);
      FindOnlyAt(fields[1..], key, k - 1);
    }
  }

  /** A key stored twice makes the lookup fail, whatever the values. */
  lemma {:induction false} FindRepeated(fields: seq<(string, Json)>, key: string, i: int, j: int)
    requires 0 <= i < j < |fields|
    requires fields[i].0 == key && fields[j].0 == key
    ensures Find(fields, key) == Duplicate
  {
    if i == 0 {
      assert fields[1..][j - 1] == fields[j];
      FindMissing(fields[1..], key);
    } else {
      assert fields[1..][i - 1] == fields[i] && fields[1..][j - 1] == fields[j];
      FindRepeated(fields[1..], key, i - 1, j - 1);
    }
  }

  /** Overwriting the value stored under key `fields[k].0` changes no other lookup. */
  lemma {:induction false} FindUpdateOther(fields: seq<(string, Json)>, k: int, v: Json, key: string)
    requires 0 <= k < |fields| && key != fields[k].0
    ensures Find(fields[k := (fields[k].0, v)], key) == Find(fields, key)
  {
    var updated := fields[k := (fields[k].0, v)];
    if k == 0 {
      assert updated[1..] == fields[1..];
    } else {
      assert updated[1..] == fields[1..][k - 1 := (fields[k].0, v)];
      FindUpdateOther(fields[1..], k - 1, v, key);
    }
  }

  /** Overwriting the value stored under `key` at index `k` keeps the lookup's outcome, with the new value if found. */
  lemma {:induction false} FindUpdateSame(fields: seq<(string, Json)>, k: int, v: Json)
    requires 0 <= k < |fields|
    ensures var key := fields[k].0;
      Find(fields[k := (key, v)], key) ==
        (if Find(fields, key).Found? then Found(v) else Find(fields, key))
  {
    var key := fields[k].0;
    var updated := fields[k := (key, v)];
    if k == 0 {
      assert updated[1..] == fields[1..];
    } else {
      assert updated[1..] == fields[1..][k - 1 := (key, v)];
      assert fields[1..][k - 1].0 == key;
      FindUpdateSame(fields[1..], k - 1, v);
      FindMissing(fields[1..], key);
      FindMissing(updated[1..], key);
    }
  }

  /** Appending an entry under another key changes no lookup. */
  lemma {:induction false} FindAppendOther(fields: seq<(string, Json)>, extra: (string, Json), key: string)
    requires extra.0 != key
    ensures Find(fields + [extra], key) == Find(fields, key)
  {
    if fields != [] {
      assert (fields + [extra])[1..] == fields[1..] + [extra];
      FindAppendOther(fields[1..], extra, key);
    }
  }

  /** In a two-entry object with distinct keys, each key is found with its value and no other key is there. */
  lemma FindTwo(a: (string, Json), b: (string, Json))
    requires a.0 != b.0
    ensures Find([a, b], a.0) == Found(a.1) && Find([a, b], b.0) == Found(b.1)
    ensures forall key :: key != a.0 && key != b.0 ==> Find([a, b], key) == Missing
  {
    forall key
      ensures Find([b], key) == if key == b.0 then Found(b.1) else Missing
    {
      assert [b][1..] == [];
    }
    assert [a, b][1..] == [b];
  }

  /** The same for three entries. */
  lemma FindThree(a: (string, Json), b: (string, Json), c: (string, Json))
    requires a.0 != b.0 && a.0 != c.0 && b.0 != c.0
    ensures Find([a, b, c], a.0) == Found(a.1) && Find([a, b, c], b.0) == Found(b.1)
    ensures Find([a, b, c], c.0) == Found(c.1)
    ensures forall key :: key != a.0 && key != b.0 && key != c.0 ==> Find([a, b, c], key) == Missing
  {
    assert [a, b, c][1..] == [b, c];
    FindTwo(b, c);
  }

  /** The same for four entries. */
  lemma FindFour(a: (string, Json), b: (string, Json), c: (string, Json), d: (string, Json))
    requires a.0 != b.0 && a.0 != c.0 && a.0 != d.0 && b.0 != c.0 && b.0 != d.0 && c.0 != d.0
    ensures Find([a, b, c, d], a.0) == Found(a.1) && Find([a, b, c, d], b.0) == Found(b.1)
    ensures Find([a, b, c, d], c.0) == Found(c.1) && Find([a, b, c, d], d.0) == Found(d.1)
    ensures forall key :: key != a.0 && key != b.0 && key != c.0 && key != d.0 ==> Find([a, b, c, d], key) == Missing
  {
    assert [a, b, c, d][1..] == [b, c, d];
    FindThree(b, c, d);
  }

  /**
    A JSON array read as a `Vec`: it decodes only when every element does, and
    the elements keep the array's order.
   */
  function DecodeArray<T>(js: seq<Json>, decode: Json -> Option<T>): (r: Option<seq<T>>)
    ensures r.Some? <==> forall i :: 0 <= i < |js| ==> decode(js[i]).Some?
    ensures r.Some? ==> |r.value| == |js| && forall i :: 0 <= i < |js| ==> decode(js[i]) == Some(r.value[i])
  {
    if js == [] then Some([])
    else
      var first := decode(js[0]);
      var rest := DecodeArray(js[1..], decode);
      if first.Some? && rest.Some? then
        var items := [first.value] + rest.value;
        assert forall i :: 1 <= i < |js| ==> js[i] == js[1..][i - 1] && items[i] == rest.value[i - 1];
        Some(items)
      else if first.None? then
        None
      else
        var k :| 0 <= k < |js[1..]| && decode(js[1..][k]).None?;
        assert decode(js[k + 1]).None?;
        None
  }

  /** A required `String` field. */
  function RequiredString(fields: seq<(string, Json)>, key: string): (r: Option<string>)
    ensures forall s :: r == Some(s) <==> Find(fields, key) == Found(Str(s))
  {
    match Find(fields, key)
    case Found(Str(s)) => Some(s)
    case _ => None
  }

  /** A required `u64` field. */
  function RequiredU64(fields: seq<(string, Json)>, key: string): (r: Option<u64>)
    ensures forall n: nat :: r == Some(n) <==> n < U64_LIMIT && Find(fields, key) == Found(Number(n))
  {
    match Find(fields, key)
    case Found(Number(n)) => if n < U64_LIMIT then Some(n) else None
    case _ => None
  }

  /** An `Option<String>` field: missing and `null` both give an unset value. */
  function OptionalString(fields: seq<(string, Json)>, key: string): (r: Option<Option<string>>)
    ensures r == Some(None) <==> Find(fields, key) in {Missing, Found(Null)}
    ensures forall s :: r == Some(Some(s)) <==> Find(fields, key) == Found(Str(s))
  {
    match Find(fields, key)
    case Missing => Some(None)
    case Found(Null) => Some(None)
    case Found(Str(s)) => Some(Some(s))
    case _ => None
  }

  /** An `Option<bool>` field. */
  function OptionalBool(fields: seq<(string, Json)>, key: string): (r: Option<Option<bool>>)
    ensures r == Some(None) <==> Find(fields, key) in {Missing, Found(Null)}
    ensures forall b :: r == Some(Some(b)) <==> Find(fields, key) == Found(Bool(b))
  {
    match Find(fields, key)
    case Missing => Some(None)
    case Found(Null) => Some(None)
    case Found(Bool(b)) => Some(Some(b))
    case _ => None
  }

  /** An `Option<u64>` field; a number too wide for `u64` is refused. */
  function OptionalU64(fields: seq<(string, Json)>, key: string): (r: Option<Option<u64>>)
    ensures r == Some(None) <==> Find(fields, key) in {Missing, Found(Null)}
    ensures forall n: nat :: r == Some(Some(n)) <==> n < U64_LIMIT && Find(fields, key) == Found(Number(n))
  {
    match Find(fields, key)
    case Missing => Some(None)
    case Found(Null) => Some(None)
    case Found(Number(n)) => if n < U64_LIMIT then Some(Some(n)) else None
    case _ => None
  }

  /** How serde writes an `Option<String>`: an unset value becomes `null`. */
  function StringOrNull(o: Option<string>): Json
  {
    match o
    case Some(s) => Str(s)
    case None => Null
  }

  function BoolOrNull(o: Option<bool>): Json
  {
    match o
    case Some(b) => Bool(b)
    case None => Null
  }

  function U64OrNull(o: Option<u64>): Json
  {
    match o
    case Some(n) => Number(n)
    case None => Null
  }
}

=== FILE: media_error.dfy ===
/** The error type of `get_media` and how it is displayed. */
module MediaErrors {
  import opened Wrappers

  datatype MediaError =
    | RequestError(message: string)
    | DeserializationError(message: string)
    | ApiError(message: string)

  const REQUEST_PREFIX: string := "Request Error: "
  const DESERIALIZATION_PREFIX: string := "Deserialization Error: "
  const API_PREFIX: string := "API Error: "

  /** The prefix that announces each kind of error. */
  function Prefix(e: MediaError): string
  {
    match e
    case RequestError(_) => REQUEST_PREFIX
    case DeserializationError(_) => DESERIALIZATION_PREFIX
    case ApiError(_) => API_PREFIX
  }

  /** The `Display` rendering: the kind's prefix followed by the message. */
  function Display(e: MediaError): (s: string)
    ensures |s| == |Prefix(e)| + |e.message|
    ensures s[..|Prefix(e)|] == Prefix(e) && s[|Prefix(e)|..] == e.message
  {
    Prefix(e) + e.message
  }

  /** Reads a displayed error back: the first character decides the kind. */
  function Recover(s: string): (r: Option<MediaError>)
    ensures r.Some? ==> Display(r.value) == s
  {
    if REQUEST_PREFIX <= s then Some(RequestError(s[|REQUEST_PREFIX|..]))
    else if DESERIALIZATION_PREFIX <= s then Some(DeserializationError(s[|DESERIALIZATION_PREFIX|..]))
    else if API_PREFIX <= s then Some(ApiError(s[|API_PREFIX|..]))
    else None
  }

  /** Recovering a displayed error gives back the error itself. */
  lemma RecoverDisplay(e: MediaError)
    ensures Recover(Display(e)) == Some(e)
  {
    var s := Display(e);
    assert s[..|Prefix(e)|] == Prefix(e);
    match e
    case RequestError(_) =>
    case DeserializationError(_) =>
      assert s[0] == 'D';
      assert !(REQUEST_PREFIX <= s) by { assert REQUEST_PREFIX[0] == 'R'; }
    case ApiError(_) =>
      assert s[0] == 'A';
      assert !(REQUEST_PREFIX <= s) by { assert REQUEST_PREFIX[0] == 'R'; }
      assert !(DESERIALIZATION_PREFIX <= s) by { assert DESERIALIZATION_PREFIX[0] == 'D'; }
  }

  /** Two errors that display the same are the same error: kind and message. */
  lemma DisplayInjective(a: MediaError, b: MediaError)
    requires Display(a) == Display(b)
    ensures a == b
  {
    RecoverDisplay(a);
    RecoverDisplay(b);
  }
}

=== FILE: media_request.dfy ===
/**
  The extraction request and its derived serde encoding. Every field but `url`
  is renamed to camelCase, and no field is skipped when unset: an unset option is
  written as `null`, so the object always carries all fourteen keys.
 */
module MediaRequest {
  import opened Wrappers
  import opened Json

  datatype MediaRequestData = MediaRequestData(
    url: string,
    videoQuality: Option<string>,
    audioFormat: Option<string>,
    audioBitrate: Option<string>,
    filenameStyle: Option<string>,
    downloadMode: Option<string>,
    youtubeVideoCodec: Option<string>,
    youtubeDubLang: Option<string>,
    alwaysProxy: Option<bool>,
    disableMetadata: Option<bool>,
    tiktokFullAudio: Option<bool>,
    tiktokH265: Option<bool>,
    twitterGif: Option<bool>,
    youtubeHls: Option<bool>)

  /** The wire keys, in field-declaration order. */
  const REQUEST_KEYS: seq<string> := [
    "url", "videoQuality", "audioFormat", "audioBitrate", "filenameStyle",
    "downloadMode", "youtubeVideoCodec", "youtubeDubLang", "alwaysProxy",
    "disableMetadata", "tiktokFullAudio", "tiktokH265", "twitterGif", "youtubeHLS"]

  /** `Default::default()`: an empty url and every option unset. */
  function Default(): (r: MediaRequestData)
    ensures r.url == ""
    ensures forall i :: 1 <= i < 8 ==> StringOption(r, i).None?
    ensures forall i :: 8 <= i < 14 ==> BoolOption(r, i).None?
  {
    MediaRequestData("", None, None, None, None, None, None, None, None, None, None, None, None, None)
  }

  /** The string option stored at position `i` of the wire object. */
  function StringOption(r: MediaRequestData, i: int): Option<string>
    requires 1 <= i < 8
  {
    match i
    case 1 => r.videoQuality
    case 2 => r.audioFormat
    case 3 => r.audioBitrate
    case 4 => r.filenameStyle
    case 5 => r.downloadMode
    case 6 => r.youtubeVideoCodec
    case _ => r.youtubeDubLang
  }

  /** The boolean option stored at position `i` of the wire object. */
  function BoolOption(r: MediaRequestData, i: int): Option<bool>
    requires 8 <= i < 14
  {
    match i
    case 8 => r.alwaysProxy
    case 9 => r.disableMetadata
    case 10 => r.tiktokFullAudio
    case 11 => r.tiktokH265
    case 12 => r.twitterGif
    case _ => r.youtubeHls
  }

  /** The value written under `REQUEST_KEYS[i]`: the url as a string, an unset option as `null`. */
  function ValueAt(r: MediaRequestData, i: int): Json
    requires 0 <= i < |REQUEST_KEYS|
  {
    if i == 0 then Str(r.url)
    else if i < 8 then StringOrNull(StringOption(r, i))
    else BoolOrNull(BoolOption(r, i))
  }

  /** The values written for each key, in the order of `REQUEST_KEYS`. */
  function Values(r: MediaRequestData): (vs: seq<Json>)
    ensures |vs| == |REQUEST_KEYS|
    ensures vs[0] == Str(r.url)
    ensures forall i :: 1 <= i < 8 ==> vs[i] == StringOrNull(StringOption(r, i))
    ensures forall i :: 8 <= i < 14 ==> vs[i] == BoolOrNull(BoolOption(r, i))
  {
    seq(|REQUEST_KEYS|, i requires 0 <= i < |REQUEST_KEYS| => ValueAt(r, i))
  }

  /** Pairs each key with the value at the same position. */
  function Pair(keys: seq<string>, values: seq<Json>): (fields: seq<(string, Json)>)
    requires |keys| == |values|
    ensures |fields| == |keys|
    ensures forall i :: 0 <= i < |keys| ==> fields[i] == (keys[i], values[i])
  {
    if keys == [] then [] else [(keys[0], values[0])] + Pair(keys[1..], values[1..])
  }

  /** The derived `Serialize`: one entry per field, under its wire key, in declaration order. */
  function Serialize(r: MediaRequestData): (j: Json)
    ensures j.Object? && |j.fields| == |REQUEST_KEYS|
    ensures forall i :: 0 <= i < |REQUEST_KEYS| ==> j.fields[i] == (REQUEST_KEYS[i], Values(r)[i])
  {
    Object(Pair(REQUEST_KEYS, Values(r)))
  }

  /** The derived `Deserialize`: `url` is required, each option may be missing or `null`. */
  function Deserialize(j: Json): (r: Option<MediaRequestData>)
    ensures r.Some? ==> j.Object? && RequiredString(j.fields, "url") == Some(r.value.url)
  {
    match j
    case Object(f) =>
      var url := RequiredString(f, "url");
      var videoQuality := OptionalString(f, "videoQuality");
      var audioFormat := OptionalString(f, "audioFormat");
      var audioBitrate := OptionalString(f, "audioBitrate");
      var filenameStyle := OptionalString(f, "filenameStyle");
      var downloadMode := OptionalString(f, "downloadMode");
      var youtubeVideoCodec := OptionalString(f, "youtubeVideoCodec");
      var youtubeDubLang := OptionalString(f, "youtubeDubLang");
      var alwaysProxy := OptionalBool(f, "alwaysProxy");
      var disableMetadata := OptionalBool(f, "disableMetadata");
      var tiktokFullAudio := OptionalBool(f, "tiktokFullAudio");
      var tiktokH265 := OptionalBool(f, "tiktokH265");
      var twitterGif := OptionalBool(f, "twitterGif");
      var youtubeHls := OptionalBool(f, "youtubeHLS");
      if && url.Some? && videoQuality.Some? && audioFormat.Some? && audioBitrate.Some?
         && filenameStyle.Some? && downloadMode.Some? && youtubeVideoCodec.Some?
         && youtubeDubLang.Some? && alwaysProxy.Some? && disableMetadata.Some?
         && tiktokFullAudio.Some? && tiktokH265.Some? && twitterGif.Some? && youtubeHls.Some?
      then
        Some(MediaRequestData(url.value, videoQuality.value, audioFormat.value, audioBitrate.value,
          filenameStyle.value, downloadMode.value, youtubeVideoCodec.value, youtubeDubLang.value,
          alwaysProxy.value, disableMetadata.value, tiktokFullAudio.value, tiktokH265.value,
          twitterGif.value, youtubeHls.value))
      else
        None
    case _ => None
  }

  /**
    The derived `Deserialize` on any JSON value: it accepts exactly the objects
    whose `url` is a string and whose every option, under its renamed key, is
    missing, `null` or of its type; keys it does not know are skipped.
   */
  lemma RequestShape(j: Json, r: MediaRequestData)
    ensures Deserialize(j) == Some(r) <==>
      && j.Object?
      && RequiredString(j.fields, "url") == Some(r.url)
      && OptionalString(j.fields, "videoQuality") == Some(r.videoQuality)
      && OptionalString(j.fields, "audioFormat") == Some(r.audioFormat)
      && OptionalString(j.fields, "audioBitrate") == Some(r.audioBitrate)
      && OptionalString(j.fields, "filenameStyle") == Some(r.filenameStyle)
      && OptionalString(j.fields, "downloadMode") == Some(r.downloadMode)
      && OptionalString(j.fields, "youtubeVideoCodec") == Some(r.youtubeVideoCodec)
      && OptionalString(j.fields, "youtubeDubLang") == Some(r.youtubeDubLang)
      && OptionalBool(j.fields, "alwaysProxy") == Some(r.alwaysProxy)
      && OptionalBool(j.fields, "disableMetadata") == Some(r.disableMetadata)
      && OptionalBool(j.fields, "tiktokFullAudio") == Some(r.tiktokFullAudio)
      && OptionalBool(j.fields, "tiktokH265") == Some(r.tiktokH265)
      && OptionalBool(j.fields, "twitterGif") == Some(r.twitterGif)
      && OptionalBool(j.fields, "youtubeHLS") == Some(r.youtubeHls)
  {
  }

  /** No two fields share a wire key. */
  lemma KeysDistinct()
    ensures forall i, k :: 0 <= i < k < |REQUEST_KEYS| ==> REQUEST_KEYS[i] != REQUEST_KEYS[k]
  {
  }

  /** Every field is found, exactly once, under its wire key. */
  lemma SerializedLookup(r: MediaRequestData, i: int)
    requires 0 <= i < |REQUEST_KEYS|
    ensures Find(Serialize(r).fields, REQUEST_KEYS[i]) == Found(Values(r)[i])
  {
    KeysDistinct();
    FindOnlyAt(Serialize(r).fields, REQUEST_KEYS[i], i);
  }

  /** A string option reads back from a serialized request as it was set. */
  lemma StringOptionRead(r: MediaRequestData, i: int)
    requires 1 <= i < 8
    ensures OptionalString(Serialize(r).fields, REQUEST_KEYS[i]) == Some(StringOption(r, i))
  {
    SerializedLookup(r, i);
  }

  /** A boolean option reads back from a serialized request as it was set. */
  lemma BoolOptionRead(r: MediaRequestData, i: int)
    requires 8 <= i < 14
    ensures OptionalBool(Serialize(r).fields, REQUEST_KEYS[i]) == Some(BoolOption(r, i))
  {
    SerializedLookup(r, i);
  }

  /** Deserializing a serialized request gives back the same request. */
  lemma RoundTrip(r: MediaRequestData)
    ensures Deserialize(Serialize(r)) == Some(r)
  {
    SerializedLookup(r, 0);
    StringOptionRead(r, 1); StringOptionRead(r, 2); StringOptionRead(r, 3);
    StringOptionRead(r, 4); StringOptionRead(r, 5); StringOptionRead(r, 6);
    StringOptionRead(r, 7);
    BoolOptionRead(r, 8); BoolOptionRead(r, 9); BoolOptionRead(r, 10);
    BoolOptionRead(r, 11); BoolOptionRead(r, 12); BoolOptionRead(r, 13);
  }

  /** An object holding only a `url` string is accepted: every missing option reads as unset. */
  lemma UrlOnly(url: string)
    ensures Deserialize(Object([("url", Str(url))])) == Some(Default().(url := url))
  {
    var f := [("url", Str(url))];
    assert f[1..] == [];
    assert Find(f[1..], "url") == Missing;
    assert RequiredString(f, "url") == Some(url);
    OnlyUrl(url, "videoQuality"); OnlyUrl(url, "audioFormat"); OnlyUrl(url, "audioBitrate");
    OnlyUrl(url, "filenameStyle"); OnlyUrl(url, "downloadMode"); OnlyUrl(url, "youtubeVideoCodec");
    OnlyUrl(url, "youtubeDubLang"); OnlyUrl(url, "alwaysProxy"); OnlyUrl(url, "disableMetadata");
    OnlyUrl(url, "tiktokFullAudio"); OnlyUrl(url, "tiktokH265"); OnlyUrl(url, "twitterGif");
    OnlyUrl(url, "youtubeHLS");
  }

  /** In an object holding only `url`, any other key is missing and so reads as unset. */
  lemma OnlyUrl(url: string, key: string)
    requires key != "url"
    ensures OptionalString([("url", Str(url))], key) == Some(None)
    ensures OptionalBool([("url", Str(url))], key) == Some(None)
  {
    var f := [("url", Str(url))];
    assert f[1..] == [];
    assert Find(f, key) == Missing;
  }

  /** The default request serializes to its empty url followed by thirteen `null`s, nothing omitted. */
  lemma DefaultSerialization()
    ensures var j := Serialize(Default());
      && j.fields[0] == ("url", Str(""))
      && forall i :: 1 <= i < |j.fields| ==> j.fields[i].1 == Null
  {
    var j := Serialize(Default());
    forall i | 1 <= i < |j.fields|
      ensures j.fields[i].1 == Null
    {
      assert j.fields[i].1 == ValueAt(Default(), i);
      if i < 8 {
        assert StringOption(Default(), i) == None;
      } else {
        assert BoolOption(Default(), i) == None;
      }
    }
  }
}

=== FILE: media_response.dfy ===
/**
  The service's answer to an extraction request. On the wire it is untagged:
  the decoder tries the Error shape, then the Picker shape, then the Redirect
  shape, and keeps the first one whose required fields are all there. Nothing
  else is looked at, so the value of `status` plays no part in the choice.
 */
module MediaResponse {
  import opened Wrappers
  import opened Json

  /** The three-valued tag a caller branches on. */
  datatype Status = Error | Picker | Redirect

  datatype ErrorContext = ErrorContext(service: Option<string>, limit: Option<u64>)

  datatype ErrorDetails = ErrorDetails(code: string, context: Option<ErrorContext>)

  datatype ErrorResponse = ErrorResponse(status: string, error: ErrorDetails)

  /** One entry of a picker; `kind` is the wire key `type`. */
  datatype MediaItem = MediaItem(kind: string, url: string, thumb: Option<string>)

  /** `audioFilename` is the wire key `audio_filename`: this struct renames nothing. */
  datatype PickerResponse = PickerResponse(
    status: string, audio: Option<string>, audioFilename: Option<string>, picker: seq<MediaItem>)

  datatype RedirectResponse = RedirectResponse(status: string, url: string, filename: string)

  datatype Response =
    | Error(errorResult: ErrorResponse)
    | Picker(pickerResult: PickerResponse)
    | Redirect(redirectResult: RedirectResponse)

  /** `get_status`: the tag named after the variant. */
  function GetStatus(r: Response): (s: Status)
    ensures s == Status.Error <==> r.Error?
    ensures s == Status.Picker <==> r.Picker?
    ensures s == Status.Redirect <==> r.Redirect?
  {
    match r
    case Error(_) => Status.Error
    case Picker(_) => Status.Picker
    case Redirect(_) => Status.Redirect
  }

  // Decoding: one partial decoder per shape.

  function DecodeContext(j: Json): Option<ErrorContext>
  {
    match j
    case Object(f) =>
      var service := OptionalString(f, "service");
      var limit := OptionalU64(f, "limit");
      if service.Some? && limit.Some? then Some(ErrorContext(service.value, limit.value)) else None
    case _ => None
  }

  /** The optional `context` field: missing or `null` leaves it unset. */
  function OptionalContext(f: seq<(string, Json)>): Option<Option<ErrorContext>>
  {
    match Find(f, "context")
    case Missing => Some(None)
    case Found(Null) => Some(None)
    case Found(v) => (var c := DecodeContext(v); if c.Some? then Some(Some(c.value)) else None)
    case Duplicate => None
  }

  function DecodeDetails(j: Json): Option<ErrorDetails>
  {
    match j
    case Object(f) =>
      var code := RequiredString(f, "code");
      var context := OptionalContext(f);
      if code.Some? && context.Some? then Some(ErrorDetails(code.value, context.value)) else None
    case _ => None
  }

  /** The Error shape: a string `status` and an `error` object holding a string `code`. */
  function DecodeErrorResponse(j: Json): (r: Option<ErrorResponse>)
    ensures r.Some? ==> j.Object? && Find(j.fields, "status") == Found(Str(r.value.status))
    ensures r.Some? ==> j.Object? && Find(j.fields, "error").Found?
  {
    match j
    case Object(f) =>
      var status := RequiredString(f, "status");
      var error := if Find(f, "error").Found? then DecodeDetails(Find(f, "error").value) else None;
      if status.Some? && error.Some? then Some(ErrorResponse(status.value, error.value)) else None
    case _ => None
  }

  function DecodeItem(j: Json): Option<MediaItem>
  {
    match j
    case Object(f) =>
      var kind := RequiredString(f, "type");
      var url := RequiredString(f, "url");
      var thumb := OptionalString(f, "thumb");
      if kind.Some? && url.Some? && thumb.Some? then Some(MediaItem(kind.value, url.value, thumb.value)) else None
    case _ => None
  }

  /** The `picker` array: every entry must decode, and the items keep the array's order. */
  function DecodeItems(js: seq<Json>): (r: Option<seq<MediaItem>>)
    ensures r.Some? <==> forall i :: 0 <= i < |js| ==> DecodeItem(js[i]).Some?
    ensures r.Some? ==> |r.value| == |js| && forall i :: 0 <= i < |js| ==> DecodeItem(js[i]) == Some(r.value[i])
  {
    DecodeArray(js, DecodeItem)
  }

  /** The Picker shape: a string `status` and an array `picker`; `audio` and `audio_filename` are optional. */
  function DecodePickerResponse(j: Json): (r: Option<PickerResponse>)
    ensures r.Some? ==> j.Object? && Find(j.fields, "status") == Found(Str(r.value.status))
    ensures r.Some? ==> j.Object? && Find(j.fields, "picker").Found? && Find(j.fields, "picker").value.Array?
  {
    match j
    case Object(f) =>
      var status := RequiredString(f, "status");
      var audio := OptionalString(f, "audio");
      var audioFilename := OptionalString(f, "audio_filename");
      var picker := match Find(f, "picker") case Found(Array(items)) => DecodeItems(items) case _ => None;
      if status.Some? && audio.Some? && audioFilename.Some? && picker.Some?
      then Some(PickerResponse(status.value, audio.value, audioFilename.value, picker.value))
      else None
    case _ => None
  }

  /** The Redirect shape: string `status`, `url` and `filename`. */
  function DecodeRedirectResponse(j: Json): (r: Option<RedirectResponse>)
    ensures forall d :: r == Some(d) <==>
      && j.Object?
      && Find(j.fields, "status") == Found(Str(d.status))
      && Find(j.fields, "url") == Found(Str(d.url))
      && Find(j.fields, "filename") == Found(Str(d.filename))
  {
    match j
    case Object(f) =>
      var status := RequiredString(f, "status");
      var url := RequiredString(f, "url");
      var filename := RequiredString(f, "filename");
      if status.Some? && url.Some? && filename.Some?
      then Some(RedirectResponse(status.value, url.value, filename.value))
      else None
    case _ => None
  }

  /** The untagged decode: the first shape that matches, in the order Error, Picker, Redirect. */
  function Decode(j: Json): (r: Option<Response>)
    ensures forall e :: r == Some(Response.Error(e)) <==> DecodeErrorResponse(j) == Some(e)
    ensures forall p :: r == Some(Response.Picker(p)) <==>
      DecodeErrorResponse(j).None? && DecodePickerResponse(j) == Some(p)
    ensures forall d :: r == Some(Response.Redirect(d)) <==>
      DecodeErrorResponse(j).None? && DecodePickerResponse(j).None? && DecodeRedirectResponse(j) == Some(d)
    ensures r.None? <==>
      DecodeErrorResponse(j).None? && DecodePickerResponse(j).None? && DecodeRedirectResponse(j).None?
  {
    var e := DecodeErrorResponse(j);
    if e.Some? then Some(Response.Error(e.value))
    else
      var p := DecodePickerResponse(j);
      if p.Some? then Some(Response.Picker(p.value))
      else
        var d := DecodeRedirectResponse(j);
        if d.Some? then Some(Response.Redirect(d.value)) else None
  }

  /** The tag of a decode, if it succeeded. */
  function Tag(r: Option<Response>): Option<Status>
  {
    match r
    case Some(v) => Some(GetStatus(v))
    case None => None
  }

  // What each shape demands of an object, field by field.

  /** A context: `service` and `limit` are each missing, `null`, or of their type. */
  lemma ContextShape(j: Json, c: ErrorContext)
    ensures DecodeContext(j) == Some(c) <==>
      && j.Object?
      && OptionalString(j.fields, "service") == Some(c.service)
      && OptionalU64(j.fields, "limit") == Some(c.limit)
  {
  }

  /** Error details: a string `code`, and a `context` that is missing, `null`, or a context. */
  lemma DetailsShape(j: Json, d: ErrorDetails)
    ensures DecodeDetails(j) == Some(d) <==>
      && j.Object?
      && Find(j.fields, "code") == Found(Str(d.code))
      && (d.context.None? ==> Find(j.fields, "context") in {Missing, Found(Null)})
      && (d.context.Some? ==>
            && Find(j.fields, "context").Found? && Find(j.fields, "context").value != Null
            && DecodeContext(Find(j.fields, "context").value) == d.context)
  {
  }

  /** The Error shape is exactly a string `status` beside an `error` object that decodes as details. */
  lemma ErrorShape(j: Json, e: ErrorResponse)
    ensures DecodeErrorResponse(j) == Some(e) <==>
      && j.Object?
      && Find(j.fields, "status") == Found(Str(e.status))
      && Find(j.fields, "error").Found?
      && DecodeDetails(Find(j.fields, "error").value) == Some(e.error)
  {
  }

  /** A picker item: string `type` and `url`, and a `thumb` that is missing, `null` or a string. */
  lemma ItemShape(j: Json, it: MediaItem)
    ensures DecodeItem(j) == Some(it) <==>
      && j.Object?
      && Find(j.fields, "type") == Found(Str(it.kind))
      && Find(j.fields, "url") == Found(Str(it.url))
      && OptionalString(j.fields, "thumb") == Some(it.thumb)
  {
  }

  /**
    The Picker shape is exactly a string `status`, optional `audio` and
    `audio_filename`, and a `picker` array whose entries are items, in order.
   */
  lemma PickerShape(j: Json, p: PickerResponse)
    ensures DecodePickerResponse(j) == Some(p) <==>
      && j.Object?
      && Find(j.fields, "status") == Found(Str(p.status))
      && OptionalString(j.fields, "audio") == Some(p.audio)
      && OptionalString(j.fields, "audio_filename") == Some(p.audioFilename)
      && Find(j.fields, "picker").Found? && Find(j.fields, "picker").value.Array?
      && var items := Find(j.fields, "picker").value.items;
        && |items| == |p.picker|
        && forall i :: 0 <= i < |items| ==> DecodeItem(items[i]) == Some(p.picker[i])
  {
    if j.Object? && Find(j.fields, "picker").Found? && Find(j.fields, "picker").value.Array? {
      var items := Find(j.fields, "picker").value.items;
      if |items| == |p.picker| && forall i :: 0 <= i < |items| ==> DecodeItem(items[i]) == Some(p.picker[i]) {
        assert DecodeItems(items).Some?;
        assert DecodeItems(items).value == p.picker;
      }
    }
  }

  // Encoding: the derived `Serialize` writes the inner struct, options as `null`.

  /** The derived `Serialize` of each struct: every field under its wire key, once; an unset option as `null`. */
  function EncodeContext(c: ErrorContext): (j: Json)
    ensures j.Object? && |j.fields| == 2
    ensures Find(j.fields, "service") == Found(StringOrNull(c.service))
    ensures Find(j.fields, "limit") == Found(U64OrNull(c.limit))
  {
    var service, limit := ("service", StringOrNull(c.service)), ("limit", U64OrNull(c.limit));
    FindTwo(service, limit);
    Object([service, limit])
  }

  function EncodeDetails(d: ErrorDetails): (j: Json)
    ensures j.Object? && |j.fields| == 2
    ensures Find(j.fields, "code") == Found(Str(d.code))
    ensures d.context.None? ==> Find(j.fields, "context") == Found(Null)
    ensures d.context.Some? ==> Find(j.fields, "context") == Found(EncodeContext(d.context.value))
  {
    var code := ("code", Str(d.code));
    var context := ("context", match d.context case Some(c) => EncodeContext(c) case None => Null);
    FindTwo(code, context);
    Object([code, context])
  }

  function EncodeErrorResponse(e: ErrorResponse): (j: Json)
    ensures j.Object? && |j.fields| == 2
    ensures Find(j.fields, "status") == Found(Str(e.status))
    ensures Find(j.fields, "error") == Found(EncodeDetails(e.error))
    ensures OnlyKeys(j, ["status", "error"])
  {
    var status, error := ("status", Str(e.status)), ("error", EncodeDetails(e.error));
    FindTwo(status, error);
    Object([status, error])
  }

  function EncodeItem(it: MediaItem): (j: Json)
    ensures j.Object? && |j.fields| == 3
    ensures Find(j.fields, "type") == Found(Str(it.kind))
    ensures Find(j.fields, "url") == Found(Str(it.url))
    ensures Find(j.fields, "thumb") == Found(StringOrNull(it.thumb))
  {
    var kind, url, thumb := ("type", Str(it.kind)), ("url", Str(it.url)), ("thumb", StringOrNull(it.thumb));
    FindThree(kind, url, thumb);
    Object([kind, url, thumb])
  }

  function EncodeItems(items: seq<MediaItem>): (js: seq<Json>)
    ensures |js| == |items|
    ensures forall i :: 0 <= i < |items| ==> js[i] == EncodeItem(items[i])
  {
    if items == [] then [] else [EncodeItem(items[0])] + EncodeItems(items[1..])
  }

  function EncodePickerResponse(p: PickerResponse): (j: Json)
    ensures j.Object? && |j.fields| == 4
    ensures Find(j.fields, "status") == Found(Str(p.status))
    ensures Find(j.fields, "audio") == Found(StringOrNull(p.audio))
    ensures Find(j.fields, "audio_filename") == Found(StringOrNull(p.audioFilename))
    ensures Find(j.fields, "picker") == Found(Array(EncodeItems(p.picker)))
    ensures OnlyKeys(j, ["status", "audio", "audio_filename", "picker"])
  {
    var status, audio := ("status", Str(p.status)), ("audio", StringOrNull(p.audio));
    var audioFilename := ("audio_filename", StringOrNull(p.audioFilename));
    var picker := ("picker", Array(EncodeItems(p.picker)));
    FindFour(status, audio, audioFilename, picker);
    Object([status, audio, audioFilename, picker])
  }

  function EncodeRedirectResponse(d: RedirectResponse): (j: Json)
    ensures j.Object? && |j.fields| == 3
    ensures Find(j.fields, "status") == Found(Str(d.status))
    ensures Find(j.fields, "url") == Found(Str(d.url))
    ensures Find(j.fields, "filename") == Found(Str(d.filename))
    ensures OnlyKeys(j, ["status", "url", "filename"])
  {
    var status, url, filename := ("status", Str(d.status)), ("url", Str(d.url)), ("filename", Str(d.filename));
    FindThree(status, url, filename);
    Object([status, url, filename])
  }

  /**
    The untagged `Serialize`: the variant's struct alone, with no tag. Which keys
    are present tells the variants apart: only an error has `error`, only a
    picker has `picker`, only a redirect has `filename`.
   */
  function Encode(r: Response): (j: Json)
    ensures HasKey(j, "status")
    ensures HasKey(j, "error") <==> r.Error?
    ensures HasKey(j, "picker") <==> r.Picker?
    ensures HasKey(j, "filename") <==> r.Redirect?
    ensures r.Error? ==> OnlyKeys(j, ["status", "error"])
    ensures r.Picker? ==> OnlyKeys(j, ["status", "audio", "audio_filename", "picker"])
    ensures r.Redirect? ==> OnlyKeys(j, ["status", "url", "filename"])
  {
    VariantKeys();
    match r
    case Error(e) => EncodeErrorResponse(e)
    case Picker(p) => EncodePickerResponse(p)
    case Redirect(d) => EncodeRedirectResponse(d)
  }

  /** The key that marks each variant is absent from the other two variants' key sets. */
  lemma VariantKeys()
    ensures "error" !in ["status", "audio", "audio_filename", "picker"] && "error" !in ["status", "url", "filename"]
    ensures "picker" !in ["status", "error"] && "picker" !in ["status", "url", "filename"]
    ensures "filename" !in ["status", "error"] && "filename" !in ["status", "audio", "audio_filename", "picker"]
  {
  }

  // Properties of the decoder.

  lemma ItemRoundTrip(it: MediaItem)
    ensures DecodeItem(EncodeItem(it)) == Some(it)
  {
    var f := EncodeItem(it).fields;
    FindOnlyAt(f, "type", 0);
    FindOnlyAt(f, "url", 1);
    FindOnlyAt(f, "thumb", 2);
  }

  /** A picker array reads back item for item, in the same order. */
  lemma ItemsRoundTrip(items: seq<MediaItem>)
    ensures DecodeItems(EncodeItems(items)) == Some(items)
  {
    var js := EncodeItems(items);
    forall i | 0 <= i < |items| ensures DecodeItem(js[i]) == Some(items[i]) {
      ItemRoundTrip(items[i]);
    }
    var r := DecodeItems(js);
    assert r.Some?;
    assert r.value == items;
  }

  lemma ContextRoundTrip(c: ErrorContext)
    ensures DecodeContext(EncodeContext(c)) == Some(c)
  {
    var f := EncodeContext(c).fields;
    FindOnlyAt(f, "service", 0);
    FindOnlyAt(f, "limit", 1);
  }

  lemma DetailsRoundTrip(d: ErrorDetails)
    ensures DecodeDetails(EncodeDetails(d)) == Some(d)
  {
    var f := EncodeDetails(d).fields;
    FindOnlyAt(f, "code", 0);
    FindOnlyAt(f, "context", 1);
    if d.context.Some? {
      ContextRoundTrip(d.context.value);
    }
  }

  lemma ErrorRoundTrip(e: ErrorResponse)
    ensures DecodeErrorResponse(EncodeErrorResponse(e)) == Some(e)
  {
    var f := EncodeErrorResponse(e).fields;
    FindOnlyAt(f, "status", 0);
    FindOnlyAt(f, "error", 1);
    DetailsRoundTrip(e.error);
  }

  lemma PickerRoundTrip(p: PickerResponse)
    ensures DecodeErrorResponse(EncodePickerResponse(p)).None?
    ensures DecodePickerResponse(EncodePickerResponse(p)) == Some(p)
  {
    var f := EncodePickerResponse(p).fields;
    assert EncodePickerResponse(p) == Object(f);
    PickerIsNotError(p);
    PickerFieldsRead(p);
    ItemsRoundTrip(p.picker);
    PickerFromFields(f, EncodeItems(p.picker), p);
  }

  /** Each field of an encoded picker is found once, under its own key. */
  lemma PickerFieldsRead(p: PickerResponse)
    ensures var f := EncodePickerResponse(p).fields;
      && Find(f, "status") == Found(Str(p.status))
      && Find(f, "audio") == Found(StringOrNull(p.audio))
      && Find(f, "audio_filename") == Found(StringOrNull(p.audioFilename))
      && Find(f, "picker") == Found(Array(EncodeItems(p.picker)))
  {
    var f := EncodePickerResponse(p).fields;
    FindOnlyAt(f, "status", 0);
    FindOnlyAt(f, "audio", 1);
    FindOnlyAt(f, "audio_filename", 2);
    FindOnlyAt(f, "picker", 3);
  }

  /** An encoded picker has no `error` key, so the Error shape never claims it. */
  lemma PickerIsNotError(p: PickerResponse)
    ensures DecodeErrorResponse(EncodePickerResponse(p)).None?
  {
    FindMissing(EncodePickerResponse(p).fields, "error");
  }

  /** What the Picker decoder needs, field by field, to produce `p`. */
  lemma PickerFromFields(f: seq<(string, Json)>, items: seq<Json>, p: PickerResponse)
    requires Find(f, "status") == Found(Str(p.status))
    requires Find(f, "audio") == Found(StringOrNull(p.audio))
    requires Find(f, "audio_filename") == Found(StringOrNull(p.audioFilename))
    requires Find(f, "picker") == Found(Array(items))
    requires DecodeItems(items) == Some(p.picker)
    ensures DecodePickerResponse(Object(f)) == Some(p)
  {
    assert RequiredString(f, "status") == Some(p.status);
    assert OptionalString(f, "audio") == Some(p.audio);
    assert OptionalString(f, "audio_filename") == Some(p.audioFilename);
  }

  lemma RedirectRoundTrip(d: RedirectResponse)
    ensures DecodeErrorResponse(EncodeRedirectResponse(d)).None?
    ensures DecodePickerResponse(EncodeRedirectResponse(d)).None?
    ensures DecodeRedirectResponse(EncodeRedirectResponse(d)) == Some(d)
  {
    var f := EncodeRedirectResponse(d).fields;
    FindMissing(f, "error");
    FindMissing(f, "picker");
    FindOnlyAt(f, "status", 0);
    FindOnlyAt(f, "url", 1);
    FindOnlyAt(f, "filename", 2);
  }

  /** Decoding what the derived `Serialize` wrote gives back the same response, variant included. */
  lemma RoundTrip(r: Response)
    ensures Decode(Encode(r)) == Some(r)
  {
    match r
    case Error(e) => ErrorRoundTrip(e);
    case Picker(p) => PickerRoundTrip(p);
    case Redirect(d) => RedirectRoundTrip(d);
  }

  /**
    An object that fits both the Error and the Redirect shapes decodes as Error:
    the trial order, not the payload, settles the overlap.
   */
  lemma ErrorWinsOverRedirect(status: string, code: string, url: string, filename: string)
    ensures var j := Object([("status", Str(status)), ("error", Object([("code", Str(code))])),
                             ("url", Str(url)), ("filename", Str(filename))]);
      && DecodeRedirectResponse(j) == Some(RedirectResponse(status, url, filename))
      && Decode(j) == Some(Response.Error(ErrorResponse(status, ErrorDetails(code, None))))
  {
    var f := [("status", Str(status)), ("error", Object([("code", Str(code))])),
              ("url", Str(url)), ("filename", Str(filename))];
    FindOnlyAt(f, "status", 0);
    FindOnlyAt(f, "error", 1);
    FindOnlyAt(f, "url", 2);
    FindOnlyAt(f, "filename", 3);
    var g := [("code", Str(code))];
    FindOnlyAt(g, "code", 0);
    FindMissing(g, "context");
  }

  /** A payload that carries nothing but a status matches no shape, and decoding fails. */
  lemma StatusAloneFails(status: string)
    ensures Decode(Object([("status", Str(status))])).None?
  {
    var f := [("status", Str(status))];
    FindMissing(f, "error");
    FindMissing(f, "picker");
    FindMissing(f, "url");
  }

  /** Only objects can decode. */
  lemma NonObjectFails(j: Json)
    requires !j.Object?
    ensures Decode(j).None?
  {
  }

  /**
    Two objects that agree on every key the shapes read, except perhaps the
    value of a string `status`, decode to the same variant.
   */
  lemma SameShape(f: seq<(string, Json)>, g: seq<(string, Json)>)
    requires RequiredString(f, "status").Some? <==> RequiredString(g, "status").Some?
    requires Find(f, "error") == Find(g, "error")
    requires Find(f, "audio") == Find(g, "audio")
    requires Find(f, "audio_filename") == Find(g, "audio_filename")
    requires Find(f, "picker") == Find(g, "picker")
    requires Find(f, "url") == Find(g, "url")
    requires Find(f, "filename") == Find(g, "filename")
    ensures Tag(Decode(Object(f))) == Tag(Decode(Object(g)))
  {
    SameErrorShape(f, g);
    SamePickerShape(f, g);
    SameRedirectShape(f, g);
  }

  lemma SameErrorShape(f: seq<(string, Json)>, g: seq<(string, Json)>)
    requires RequiredString(f, "status").Some? <==> RequiredString(g, "status").Some?
    requires Find(f, "error") == Find(g, "error")
    ensures DecodeErrorResponse(Object(f)).Some? <==> DecodeErrorResponse(Object(g)).Some?
  {
  }

  lemma SamePickerShape(f: seq<(string, Json)>, g: seq<(string, Json)>)
    requires RequiredString(f, "status").Some? <==> RequiredString(g, "status").Some?
    requires Find(f, "audio") == Find(g, "audio")
    requires Find(f, "audio_filename") == Find(g, "audio_filename")
    requires Find(f, "picker") == Find(g, "picker")
    ensures DecodePickerResponse(Object(f)).Some? <==> DecodePickerResponse(Object(g)).Some?
  {
  }

  lemma SameRedirectShape(f: seq<(string, Json)>, g: seq<(string, Json)>)
    requires RequiredString(f, "status").Some? <==> RequiredString(g, "status").Some?
    requires Find(f, "url") == Find(g, "url")
    requires Find(f, "filename") == Find(g, "filename")
    ensures DecodeRedirectResponse(Object(f)).Some? <==> DecodeRedirectResponse(Object(g)).Some?
  {
  }

  /** The value of `status` never decides the variant: any other string there gives the same tag. */
  lemma StatusValueIrrelevant(fields: seq<(string, Json)>, k: int, s: string)
    requires 0 <= k < |fields| && fields[k].0 == "status" && fields[k].1.Str?
    ensures Tag(Decode(Object(fields))) == Tag(Decode(Object(fields[k := ("status", Str(s))])))
  {
    var g := fields[k := ("status", Str(s))];
    FindUpdateSame(fields, k, Str(s));
    if Find(fields, "status").Found? {
      FindFound(fields, "status");
      var k' :| OnlyAt(fields, "status", k') && fields[k'].1 == Find(fields, "status").value;
      assert k' == k;
    }
    FindUpdateOther(fields, k, Str(s), "error");
    FindUpdateOther(fields, k, Str(s), "audio");
    FindUpdateOther(fields, k, Str(s), "audio_filename");
    FindUpdateOther(fields, k, Str(s), "picker");
    FindUpdateOther(fields, k, Str(s), "url");
    FindUpdateOther(fields, k, Str(s), "filename");
    SameShape(fields, g);
  }

  /** Keys none of the shapes knows are skipped: appending one changes nothing that is decoded. */
  lemma UnknownKeyIgnored(fields: seq<(string, Json)>, extra: (string, Json))
    requires extra.0 !in ["status", "error", "audio", "audio_filename", "picker", "url", "filename"]
    ensures Decode(Object(fields + [extra])) == Decode(Object(fields))
  {
    FindAppendOther(fields, extra, "status");
    ErrorShapeIgnoresExtra(fields, extra);
    PickerShapeIgnoresExtra(fields, extra);
    RedirectShapeIgnoresExtra(fields, extra);
  }

  lemma ErrorShapeIgnoresExtra(fields: seq<(string, Json)>, extra: (string, Json))
    requires extra.0 != "status" && extra.0 != "error"
    ensures DecodeErrorResponse(Object(fields + [extra])) == DecodeErrorResponse(Object(fields))
  {
    FindAppendOther(fields, extra, "status");
    FindAppendOther(fields, extra, "error");
  }

  lemma PickerShapeIgnoresExtra(fields: seq<(string, Json)>, extra: (string, Json))
    requires extra.0 !in ["status", "audio", "audio_filename", "picker"]
    ensures DecodePickerResponse(Object(fields + [extra])) == DecodePickerResponse(Object(fields))
  {
    FindAppendOther(fields, extra, "status");
    FindAppendOther(fields, extra, "audio");
    FindAppendOther(fields, extra, "audio_filename");
    FindAppendOther(fields, extra, "picker");
  }

  lemma RedirectShapeIgnoresExtra(fields: seq<(string, Json)>, extra: (string, Json))
    requires extra.0 !in ["status", "url", "filename"]
    ensures DecodeRedirectResponse(Object(fields + [extra])) == DecodeRedirectResponse(Object(fields))
  {
    FindAppendOther(fields, extra, "status");
    FindAppendOther(fields, extra, "url");
    FindAppendOther(fields, extra, "filename");
  }
}

=== FILE: numerals.dfy ===
/**
  Decimal text for unsigned integers, both ways: how Rust displays a number
  (a status code in an error message) and how `str::parse::<u64>` reads one
  (the Content-Length header).
 */
module Numerals {
  import opened Wrappers
  import opened Json

  predicate IsDigit(c: char)
  {
    '0' <= c <= '9'
  }

  function DigitValue(c: char): nat
    requires IsDigit(c)
  {
    c as int - '0' as int
  }

  function DigitChar(d: nat): char
    requires d < 10
  {
    ('0' as int + d) as char
  }

  /** `Display` for an unsigned integer: its decimal digits, with no leading zero. */
  function Decimal(n: nat): (s: string)
    ensures |s| >= 1
    ensures forall i :: 0 <= i < |s| ==> IsDigit(s[i])
    ensures |s| > 1 ==> s[0] != '0'
  {
    if n < 10 then [DigitChar(n)] else Decimal(n / 10) + [DigitChar(n % 10)]
  }

  /** The kinds of `ParseIntError` that parsing an unsigned integer can give. */
  datatype IntErrorKind = Empty | InvalidDigit | PosOverflow

  /** The `Display` text of each kind. */
  function IntErrorMessage(k: IntErrorKind): string
  {
    match k
    case Empty => "cannot parse integer from empty string"
    case InvalidDigit => "invalid digit found in string"
    case PosOverflow => "number too large to fit in target type"
  }

  /** One step of the left-to-right scan: a bad digit is reported before an overflow. */
  function Step(acc: u64, c: char): Result<u64, IntErrorKind>
  {
    if !IsDigit(c) then Err(InvalidDigit)
    else
      var next := acc * 10 + DigitValue(c);
      if next < U64_LIMIT then Ok(next) else Err(PosOverflow)
  }

  function Accumulate(digits: string, acc: u64): Result<u64, IntErrorKind>
  {
    if digits == [] then Ok(acc)
    else
      match Step(acc, digits[0])
      case Ok(next) => Accumulate(digits[1..], next)
      case Err(k) => Err(k)
  }

  predicate AllDigits(s: string)
  {
    forall i :: 0 <= i < |s| ==> IsDigit(s[i])
  }

  /** The number a string of decimal digits names, read most significant digit first; leading zeros add nothing. */
  function DigitsValue(s: string): nat
    requires AllDigits(s)
  {
    if s == [] then 0 else DigitsValue(s[..|s| - 1]) * 10 + DigitValue(s[|s| - 1])
  }

  /** The part of a string that holds the digits: everything after one leading `+`. */
  function DigitPart(s: string): string
  {
    if s != [] && s[0] == '+' then s[1..] else s
  }

  /**
    `u64::from_str`: an empty string is `Empty`; a lone sign is `InvalidDigit`;
    one leading `+` is skipped; then every character must be a digit and the
    value must stay below 2^64. A leading `-` is an invalid digit.
   */
  function ParseU64(s: string): (r: Result<u64, IntErrorKind>)
    ensures r == Err(Empty) <==> s == []
    ensures r.Ok? ==> s != [] && forall i :: (if s[0] == '+' then 1 else 0) <= i < |s| ==> IsDigit(s[i])
    ensures r.Ok? ==> AllDigits(DigitPart(s)) && r.value == DigitsValue(DigitPart(s))
    ensures s != [] && DigitPart(s) != [] && AllDigits(DigitPart(s)) ==>
      r == if DigitsValue(DigitPart(s)) < U64_LIMIT then Ok(DigitsValue(DigitPart(s))) else Err(PosOverflow)
  {
    if s == [] then Err(Empty)
    else if (s[0] == '+' || s[0] == '-') && |s| == 1 then Err(InvalidDigit)
    else
      var digits := if s[0] == '+' then s[1..] else s;
      AccumulateAllDigits(digits, 0);
      AccumulateNotEmpty(digits, 0);
      assert digits == DigitPart(s);
      assert forall i :: (if s[0] == '+' then 1 else 0) <= i < |s| ==> s[i] == digits[i - (if s[0] == '+' then 1 else 0)];
      AccumulateValue(digits);
      Accumulate(digits, 0)
  }

  /** A scan that succeeds has read nothing but digits. */
  lemma {:induction false} AccumulateAllDigits(digits: string, acc: u64)
    ensures Accumulate(digits, acc).Ok? ==> forall i :: 0 <= i < |digits| ==> IsDigit(digits[i])
  {
    if digits != [] && Step(acc, digits[0]).Ok? {
      AccumulateAllDigits(digits[1..], Step(acc, digits[0]).value);
      assert forall i :: 1 <= i < |digits| ==> digits[i] == digits[1..][i - 1];
    }
  }

  /** A scan never reports an empty string. */
  lemma {:induction false} AccumulateNotEmpty(digits: string, acc: u64)
    ensures Accumulate(digits, acc) != Err(Empty)
  {
    if digits != [] && Step(acc, digits[0]).Ok? {
      AccumulateNotEmpty(digits[1..], Step(acc, digits[0]).value);
    }
  }

  /** Scanning one more character continues from where the shorter scan stopped. */
  lemma {:induction false} AccumulateSnoc(digits: string, c: char, acc: u64)
    ensures Accumulate(digits + [c], acc) ==
      match Accumulate(digits, acc)
      case Ok(v) => Step(v, c)
      case Err(k) => Err(k)
  {
    if digits == [] {
      assert [c][1..] == [];
    } else {
      assert (digits + [c])[1..] == digits[1..] + [c];
      match Step(acc, digits[0])
      case Ok(next) => AccumulateSnoc(digits[1..], c, next);
      case Err(_) =>
    }
  }

  /**
    On a string of digits the scan gives the value the digits name, or an
    overflow exactly when that value does not fit: every prefix names a value
    no larger than the whole.
   */
  lemma {:induction false} AccumulateValue(digits: string)
    ensures AllDigits(digits) ==>
      Accumulate(digits, 0) == if DigitsValue(digits) < U64_LIMIT then Ok(DigitsValue(digits)) else Err(PosOverflow)
  {
    if digits != [] && AllDigits(digits) {
      var front, c := digits[..|digits| - 1], digits[|digits| - 1];
      assert digits == front + [c];
      AccumulateValue(front);
      AccumulateSnoc(front, c, 0);
    }
  }

  /** Scanning `p + q` is scanning `p`, then continuing from its value over `q`. */
  lemma {:induction false} AccumulateAppend(p: string, q: string, acc: u64)
    ensures Accumulate(p + q, acc) ==
      match Accumulate(p, acc)
      case Ok(v) => Accumulate(q, v)
      case Err(k) => Err(k)
  {
    if p == [] {
      assert p + q == q;
    } else {
      assert (p + q)[0] == p[0];
      assert (p + q)[1..] == p[1..] + q;
      match Step(acc, p[0])
      case Ok(next) => AccumulateAppend(p[1..], q, next);
      case Err(_) =>
    }
  }

  /**
    What `u64::from_str` rejects: a lone `+` is an invalid digit; otherwise the
    first character that is not a digit is reported as an invalid digit, unless
    the digits before it already name a value too large for a `u64`.
   */
  lemma ParseMalformed(s: string, k: int)
    ensures s != [] && DigitPart(s) == [] ==> ParseU64(s) == Err(InvalidDigit)
    ensures var d := DigitPart(s);
      0 <= k < |d| && !IsDigit(d[k]) && AllDigits(d[..k]) ==>
        ParseU64(s) == if DigitsValue(d[..k]) < U64_LIMIT then Err(InvalidDigit) else Err(PosOverflow)
  {
    var d := DigitPart(s);
    if 0 <= k < |d| && !IsDigit(d[k]) && AllDigits(d[..k]) && !(|s| == 1 && s[0] == '-') {
      assert ParseU64(s) == Accumulate(d, 0);
      assert d == d[..k] + d[k..];
      AccumulateAppend(d[..k], d[k..], 0);
      AccumulateValue(d[..k]);
      assert d[k..][0] == d[k];
    }
  }

  /** The digits of `n` scan back to `n`. */
  lemma {:induction false} AccumulateDecimal(n: u64)
    ensures Accumulate(Decimal(n), 0) == Ok(n)
  {
    if n < 10 {
      assert Decimal(n)[1..] == [];
    } else {
      AccumulateDecimal(n / 10);
      AccumulateSnoc(Decimal(n / 10), DigitChar(n % 10), 0);
    }
  }

  /** Parsing what `Display` wrote gives back the number, for every `u64`. */
  lemma ParseDecimal(n: u64)
    ensures ParseU64(Decimal(n)) == Ok(n)
  {
    AccumulateDecimal(n);
    assert IsDigit(Decimal(n)[0]);
  }
}

=== FILE: status.dfy ===
/**
  The snapshot the service returns from its status endpoint. Only its shape
  matters here: `services` reads the list of enabled services out of it.
  The `cobalt` part renames its fields to camelCase; the `git` part does not.
 */
module ServiceStatus {
  import opened Wrappers
  import opened Json

  datatype Cobalt = Cobalt(
    version: string, url: string, startTime: string, durationLimit: u64, services: seq<string>)

  datatype Git = Git(branch: string, commit: string, remote: string)

  datatype StatusResponse = StatusResponse(cobalt: Cobalt, git: Git)

  function AsString(j: Json): Option<string>
  {
    if j.Str? then Some(j.s) else None
  }

  /** An array of strings, in its own order. */
  function DecodeNames(js: seq<Json>): (r: Option<seq<string>>)
    ensures r.Some? <==> forall i :: 0 <= i < |js| ==> js[i].Str?
    ensures r.Some? ==> |r.value| == |js| && forall i :: 0 <= i < |js| ==> js[i] == Str(r.value[i])
  {
    DecodeArray(js, AsString)
  }

  /** The camelCase fields of the `cobalt` part; the service names keep the array's order. */
  function DecodeCobalt(j: Json): (r: Option<Cobalt>)
    ensures r.Some? ==> (
      && j.Object?
      && Find(j.fields, "services").Found? && Find(j.fields, "services").value.Array?
      && var names := Find(j.fields, "services").value.items;
        && |r.value.services| == |names|
        && forall i :: 0 <= i < |names| ==> names[i] == Str(r.value.services[i]))
  {
    match j
    case Object(f) =>
      var version := RequiredString(f, "version");
      var url := RequiredString(f, "url");
      var startTime := RequiredString(f, "startTime");
      var durationLimit := RequiredU64(f, "durationLimit");
      var services := match Find(f, "services") case Found(Array(items)) => DecodeNames(items) case _ => None;
      if version.Some? && url.Some? && startTime.Some? && durationLimit.Some? && services.Some?
      then Some(Cobalt(version.value, url.value, startTime.value, durationLimit.value, services.value))
      else None
    case _ => None
  }

  function DecodeGit(j: Json): Option<Git>
  {
    match j
    case Object(f) =>
      var branch := RequiredString(f, "branch");
      var commit := RequiredString(f, "commit");
      var remote := RequiredString(f, "remote");
      if branch.Some? && commit.Some? && remote.Some?
      then Some(Git(branch.value, commit.value, remote.value))
      else None
    case _ => None
  }

  /** The derived decoder of the status snapshot: both parts must be present and well-formed. */
  function DecodeStatus(j: Json): (r: Option<StatusResponse>)
    ensures r.Some? ==> (
      && j.Object?
      && Find(j.fields, "cobalt").Found? && DecodeCobalt(Find(j.fields, "cobalt").value) == Some(r.value.cobalt)
      && Find(j.fields, "git").Found? && DecodeGit(Find(j.fields, "git").value) == Some(r.value.git))
  {
    match j
    case Object(f) =>
      var cobalt := match Find(f, "cobalt") case Found(v) => DecodeCobalt(v) case _ => None;
      var git := match Find(f, "git") case Found(v) => DecodeGit(v) case _ => None;
      if cobalt.Some? && git.Some? then Some(StatusResponse(cobalt.value, git.value)) else None
    case _ => None
  }
}

=== FILE: wrappers.dfy ===
/** Failure-compatible Option and Result, usable with `:-`. */
module Wrappers {

  datatype Option<+T> = None | Some(value: T) {
    predicate IsFailure() {
      None?
    }

    function PropagateFailure<U>(): Option<U>
      requires None?
    {
      None
    }

    function Extract(): T
      requires Some?
    {
      value
    }
  }

  datatype Result<+T, +E> = Ok(value: T) | Err(error: E) {
    predicate IsFailure() {
      Err?
    }

    function PropagateFailure<U>(): Result<U, E>
      requires Err?
    {
      Err(error)
    }

    function Extract(): T
      requires Ok?
    {
      value
    }
  }
}
